=== FILE: README.md ===
# CodeSprint editor core, in Dafny

A Dafny model of the logic in the CodeSprint timed coding page. The page is a
React application. The user picks a question and a language and edits code.
The code is run against the question's test cases on the Judge0 service and
the page shows a verdict. A thirty-minute countdown runs meanwhile, and the
solution is submitted once, by the button or on leaving the tab.

Modules, one per source component:

- `Optional` and `Strings` (`strings.dfy`) hold the JavaScript string
  behaviour the components rely on:
  - `trim` with ECMAScript's white-space set;
  - `Number.prototype.toString` for naturals and its read-back;
  - `padStart` with `'0'`;
  - `split` on one character.
- `CodeExecution` (`code_execution.dfy`) models `executeCode` from
  `src/utils/codeExecution.ts`:
  - the `languageMap` table;
  - the priority rule that reduces a judge response to one output string;
  - the trimmed comparison with the expected output;
  - the pass/fail fold and the result record.

  The judge is abstracted as a sequence of replies aligned with the test
  cases. A reply is either a parsed body, whatever its HTTP status, or
  `Thrown`, for a `fetch` or `.json()` that threw. A thrown reply aborts
  the run with no result. `Execute` states the whole run as one expression:
  the requests sent, the first thrown reply, and the verdict of the fold
  over the comparisons. `ExecuteCode` is a loop that follows the source
  statement by statement, and it is proved to produce the same run.
- `TestResults` (`test_results.dfy`) models the results panel:
  - it reads back the `"passed/total"` string;
  - it computes the progress-bar width;
  - it decides the badge, the error and suggestion blocks and the list of
    failed cases.

  Each of these is related back to the verdict it displays.
- `Header` (`header.dfy`) models the header:
  - `formatTime`, proved to round-trip through a clock parser;
  - `formatLastSaved`, driven by a whole-second difference;
  - the red-timer and admin predicates.
- `CodeEditor` (`code_editor.dfy`) models the editor page as a state machine.
  It has one `Event` per user action, timer tick or data-loading effect, and
  `Next` applies an event. Covered behaviour:
  - save, undo, redo and reset on the history;
  - the starter-code effect;
  - selecting a problem by id;
  - the countdown;
  - the one-shot submission;
  - the blank-code run guard;
  - the download extension.

  In `Next` every handler reads the current state. `Valid` holds initially
  and `Next` preserves it, so it holds in every state `Next` reaches. The
  page as written differs in one respect: the tab listener can hold an old
  history cursor. `NextAsWritten` models that, and "## Findings" shows where
  it goes wrong.

Two behaviours of the code that a reader might not expect:

- An unknown language is not rejected. `languageMap[language]` is `undefined`,
  and the request is sent anyway with no `language_id`.
- Line endings are not canonicalised. Only `trim` is applied, so an expected
  output of `1\r\n2` does not match a program output of `1\n2`.

## Model

| member | source | states |
|---|---|---|
| CodeExecution.LanguageId | src/utils/codeExecution.ts:2-13 | javascript has id 63, python 71, java 62 and cpp 54; every other language has none |
| CodeExecution.LanguageIdInjective | src/utils/codeExecution.ts:2-7 | no two supported languages share an id |
| CodeExecution.Classify | src/utils/codeExecution.ts:39-48 | the priority rule: non-empty stdout beats non-empty stderr, which beats non-empty compile output, else no output; the chosen text is trimmed; an empty field counts as absent |
| CodeExecution.Render | src/utils/codeExecution.ts:39-48 | a trimmed stdout is the output as it is; a runtime error is `Error: ` and its text, a compile error `Compile Error: ` and its text, and no output the text `No output` |
| CodeExecution.OutputOf | src/utils/codeExecution.ts:39-48 | the statement-by-statement `if`/`else if` chain yields the same text as classifying the reply and rendering the outcome, for every reply |
| CodeExecution.BlankExpectationNeedsBlankStdout | src/utils/codeExecution.ts:40-52 | against a missing or blank expected output, a case passes iff stdout is present, non-empty and all white space |
| CodeExecution.RenderConflatesOutcomes | src/utils/codeExecution.ts:41-47 | a program printing `Error: t` or `No output` produces the same string as the judge's diagnostic |
| CodeExecution.Check | src/utils/codeExecution.ts:50-52 | a case passes iff its output equals the trimmed expected output, a missing one compared as `""` |
| CodeExecution.Checks | src/utils/codeExecution.ts:20-52 | one comparison per case, in case order, against that case's response |
| CodeExecution.TallyOf | src/utils/codeExecution.ts:14-15 | every case lands in exactly one of `passed` and `failedTestCases` |
| CodeExecution.TallyExtend | src/utils/codeExecution.ts:52-60 | one more case extends the tally by one loop iteration |
| CodeExecution.FailingIndices | src/utils/codeExecution.ts:52-60 | lists every failing position and only those, strictly increasing |
| CodeExecution.TallyFailuresInOrder | src/utils/codeExecution.ts:55-59 | the failure list is the failing cases in input order |
| CodeExecution.TallyAllPassIff | src/utils/codeExecution.ts:52-53 | the pass count reaches the number of cases iff every case matched |
| CodeExecution.FailedInInputOrder | src/utils/codeExecution.ts:55-59 | `failedTestCases[k]` is the k-th failing case's untrimmed input and expected output with its classified output; a position is listed iff its case fails |
| CodeExecution.AllPassIff | src/utils/codeExecution.ts:63 | `passed == testCases.length` iff every case passes |
| CodeExecution.BuildResult | src/utils/codeExecution.ts:63-71 | the result record: success and both messages empty iff every case passed, the fixed failure texts otherwise, the pass string is the two decimal counts joined by `/`, the failure list is kept, correctness is 100 when all pass and within 0..100 always |
| CodeExecution.RoundPercent | src/utils/codeExecution.ts:70 | `Math.round(passed / total * 100)` is the nearest integer to the percentage, with halves rounded up, and lies in 0..100 |
| CodeExecution.VerdictStatus | src/utils/codeExecution.ts:63-69 | status is success iff every case passes; both messages are empty exactly then and are the fixed texts otherwise |
| CodeExecution.VerdictCorrectness | src/utils/codeExecution.ts:70 | correctness is 100 when all pass, including an empty list; otherwise it is the rounded ratio, always in 0..100 |
| CodeExecution.VerdictCounts | src/utils/codeExecution.ts:66-67 | the pass string is the decimal pass count, `/`, and the decimal case count; passes plus failures equal the cases |
| CodeExecution.EmptyRunSucceeds | src/utils/codeExecution.ts:63-70 | no test cases gives success, `0/0` and 100 |
| CodeExecution.AllMatchVerdict | src/utils/codeExecution.ts:63-70 | when every case matches, the result is success with `N/N`, no failures, empty messages and 100 |
| CodeExecution.Requests | src/utils/codeExecution.ts:20-34 | one request per case, in order, carrying the code, the table's id and that case's input |
| CodeExecution.RequestsExtend | src/utils/codeExecution.ts:20-34 | one more case appends exactly its request |
| CodeExecution.FirstThrown | src/utils/codeExecution.ts:22-35 | finds the first thrown reply, all earlier ones answered, or reports that none threw |
| CodeExecution.Bodies | src/utils/codeExecution.ts:35 | the parsed body of each answered reply, in order |
| CodeExecution.Execute | src/utils/codeExecution.ts:12-72 | one request per case in case order, each with the code, the table id and that case's input; the run completes iff every reply is answered, then with a request per case; otherwise it stops right after the first thrown reply, all before it answered |
| CodeExecution.ChecksExtend | src/utils/codeExecution.ts:20-60 | the comparisons over one more answered case append that case's comparison |
| CodeExecution.TallyOfPrefix | src/utils/codeExecution.ts:20-60 | the fold over one more answered case is one step past the fold before it |
| CodeExecution.ExecuteAborts | src/utils/codeExecution.ts:22-35 | the first thrown reply ends the run with the requests sent up to and including it |
| CodeExecution.ExecuteCompletes | src/utils/codeExecution.ts:61-71 | with every reply answered, the run completes with all requests and the verdict |
| CodeExecution.ExecuteCode | src/utils/codeExecution.ts:12-72 | the loop as written produces the same run, requests and result, as the reference definition |
| TestResults.ToNumber | src/components/TestResults.tsx:20 | `Number` of a piece is never `undefined` |
| TestResults.ParsePassed | src/components/TestResults.tsx:20 | without a `/` the total is `undefined` |
| TestResults.DecimalStringIsNumber | src/components/TestResults.tsx:20 | `Number` reads a printed natural back as itself |
| TestResults.ParsePassedRoundTrip | src/components/TestResults.tsx:20 | splitting `"p/t"` on `/` and converting recovers exactly `p` and `t` |
| TestResults.PassRate | src/components/TestResults.tsx:21 | the width is 0 unless the total is a positive number; with a positive total it is `100 * passed / total` for a numeric pass count, within 0..100 when passed does not exceed total, and `NaN` for a non-numeric one |
| TestResults.PassRateFull | src/components/TestResults.tsx:21 | with a positive total the bar is full iff every case passed |
| TestResults.FailedRows | src/components/TestResults.tsx:91-109 | one row per failed case, in list order; a missing expected output is shown as nothing and a null one as the text `null` |
| TestResults.PanelForVerdict | src/components/TestResults.tsx:19-91 | for a run's verdict: the badge reads Accepted iff every case passes; the error block, the suggestions and the failed section each show iff some case fails |
| TestResults.RowsForVerdict | src/components/TestResults.tsx:91-109 | the rows of a run are its failing cases in input order, each expected output shown as the row renders it |
| TestResults.Shown | src/components/TestResults.tsx:107 | the Expected cell shows a string as it is, `null` as the text `null`, and a missing field as nothing |
| TestResults.NullAndAbsentDiffer | src/components/TestResults.tsx:107 | a null and a missing expected output are compared alike, as the empty string, but the failed row shows `null` for the first and nothing for the second |
| TestResults.CountsForVerdict | src/components/TestResults.tsx:20 | the pass string of a run reads back as pass count and case count |
| TestResults.BarForVerdict | src/components/TestResults.tsx:19-21 | for a non-empty list the bar is full iff the run is accepted; an empty list is accepted with an empty bar |
| Header.TwoDigits | src/components/layout/Header.tsx:38 | a padded field has at least two digits, exactly two below 100, and reads back as its number |
| Header.ClockArithmetic | src/components/layout/Header.tsx:35-37 | minutes and seconds are below 60 and `hours*3600 + minutes*60 + secs` is the input |
| Header.SplitClockFields | src/components/layout/Header.tsx:38 | three digit fields joined by `:` split back into the same three |
| Header.ClockFieldsValue | src/components/layout/Header.tsx:38 | three digit fields with minutes and seconds below 60 read as their duration |
| Header.ClockReadBack | src/components/layout/Header.tsx:38 | padded fields below the carry limits read back as the duration they make |
| Header.FormatTimeRoundTrip | src/components/layout/Header.tsx:34-39 | reading the clock back gives the seconds formatted |
| Header.FormatTime | src/components/layout/Header.tsx:34-39 | the clock text is at least eight characters |
| Header.FormatTimeWidth | src/components/layout/Header.tsx:38 | the clock is exactly eight characters iff the time is below 100 hours |
| Header.ElapsedSeconds | src/components/layout/Header.tsx:44 | the whole seconds elapsed, rounded down |
| Header.FormatLastSaved | src/components/layout/Header.tsx:41-48 | `Never` without a save, `Just now` under a minute, the locale text from an hour on |
| Header.MinutesAgo | src/components/layout/Header.tsx:46 | between one minute and one hour the label is `<m>m ago`, where m in 1..59 is the number of whole minutes elapsed |
| Header.AddQuestionOnlyForAdmins | src/components/layout/Header.tsx:32-82 | with the handler the editor passes, the Add Question button shows iff the role is `admin`; without a handler it never shows |
| CodeEditor.CodeTemplate | src/utils/codeTemplates.ts:1-14 | javascript, python, java and cpp each get their own template, and an unknown language gets the empty one |
| CodeEditor.OrElse | src/components/CodeEditor.tsx:174 | JavaScript's `or` on an optional string: the field when it is present and non-empty, and the fallback in every other case |
| CodeEditor.StarterCode | src/components/CodeEditor.tsx:168-198 | the starter is the selected question's own field for the language when that is non-empty; otherwise, including with no question, it is the template, which is empty for an unknown language |
| CodeEditor.FindProblem | src/components/CodeEditor.tsx:445 | finds the first question with the id, if any has it |
| CodeEditor.Extension | src/components/CodeEditor.tsx:82 | `js` for javascript, `py` for python, `java` for java, and `cpp` exactly for every other language |
| CodeEditor.ExtensionDistinguishes | src/components/CodeEditor.tsx:82 | the three named languages get distinct extensions |
| CodeEditor.Initial | src/components/CodeEditor.tsx:33-44 | the history starts empty at position -1 with 1800 seconds on a running clock |
| CodeEditor.LoadStarter | src/components/CodeEditor.tsx:168-198 | the starter-code effect makes the starter the code and the only history entry with the cursor at 0, and changes nothing else |
| CodeEditor.SliceEnd | src/components/CodeEditor.tsx:55 | `slice(0, end)` stops at `end` when that lies within the array, and never beyond it |
| CodeEditor.SaveWith | src/components/CodeEditor.tsx:52-56 | a save with a given cursor keeps the entries up to that cursor and appends the code, while the cursor state advances by one from its current value; nothing else but the save time changes |
| CodeEditor.Save | src/components/CodeEditor.tsx:52-56 | with the cursor on an entry, the entries after it are dropped and the code becomes the new last and current entry; the time is stamped; code, results and clock are unchanged |
| CodeEditor.Undo | src/components/CodeEditor.tsx:63-68 | with an entry before the cursor, the cursor steps back and shows it; at the start nothing changes; only cursor and code ever change |
| CodeEditor.Redo | src/components/CodeEditor.tsx:70-75 | with an entry after the cursor, the cursor steps forward and shows it; at the end nothing changes; only cursor and code ever change |
| CodeEditor.Reset | src/components/CodeEditor.tsx:303-308 | the template of the current language is the code and the only entry, the cursor is 0 and the results are cleared; the clock, submission, selection and save time are kept |
| CodeEditor.Tick | src/components/CodeEditor.tsx:160-163 | a running clock loses one second and never goes below zero or up; a stopped clock changes nothing; only the time left changes |
| CodeEditor.SubmitWith | src/components/CodeEditor.tsx:257-268 | a submission with a given cursor is marked, stops the clock, stamps the time and appends the code after the entries up to that cursor |
| CodeEditor.Submit | src/components/CodeEditor.tsx:257-268 | the button's submission saves with the current cursor, so the code becomes the last and current entry; it is marked submitted and the clock stops with its time kept |
| CodeEditor.SubmitOnce | src/components/CodeEditor.tsx:365-377 | after it the page is submitted; a second submission changes nothing; a first one stops the clock, stamps the time and saves the code |
| CodeEditor.InitialValid | src/components/CodeEditor.tsx:33-44 | the first render and the mounted page satisfy the invariant |
| CodeEditor.SelectValid | src/components/CodeEditor.tsx:168-198 | a new selection from the loaded questions keeps the invariant |
| CodeEditor.QuestionsLoadedValid | src/components/CodeEditor.tsx:129-131 | loading questions and selecting the first keeps the invariant |
| CodeEditor.EditingValid | src/components/CodeEditor.tsx:52-75 | with handlers that read the current state, edits, history moves, reset, ticks, runs and submission keep the invariant |
| CodeEditor.NextValid | src/components/CodeEditor.tsx:43-75 | with handlers that read the current cursor, every event keeps the history cursor in range, the clock in 0..1800, a submission frozen, and the selection among the questions |
| CodeEditor.Replay | src/components/CodeEditor.tsx:43-44 | every state that events reach through `Next` satisfies the invariant |
| CodeEditor.ReplayExtend | src/components/CodeEditor.tsx:43-44 | replaying one more event applies it to the replayed state |
| CodeEditor.SaveAppends | src/components/CodeEditor.tsx:52-56 | saving keeps the entries up to the cursor, appends the code as the new current entry, stamps the time, and leaves nothing to redo |
| CodeEditor.UndoRedoMoveCursor | src/components/CodeEditor.tsx:63-75 | undo and redo move the cursor by one and show that entry, leave the history alone, and do nothing at the ends |
| CodeEditor.UndoThenRedo | src/components/CodeEditor.tsx:63-75 | undo followed by redo returns to a saved state |
| CodeEditor.RedoThenUndo | src/components/CodeEditor.tsx:63-75 | redo followed by undo returns to a saved state |
| CodeEditor.ResetClears | src/components/CodeEditor.tsx:303-308 | reset installs the template as the only entry and clears the results; undo and redo then do nothing |
| CodeEditor.StarterLoadsFreshHistory | src/components/CodeEditor.tsx:188-191 | a language change installs the starter as the code and the only history entry |
| CodeEditor.ChoosingAProblem | src/components/CodeEditor.tsx:442-447 | choosing an id that some question has selects exactly the first such question, as `find` does, and keeps the language; a changed selection loads its starter; an unknown id changes nothing |
| CodeEditor.Select | src/components/CodeEditor.tsx:168-198 | the same selection and language change nothing; a new one installs the starter as the code and the only entry; the clock, submission and results are kept |
| CodeEditor.TicksCountDown | src/components/CodeEditor.tsx:162 | n ticks of a running clock take n seconds off, stopping at zero |
| CodeEditor.ClockAfterTicks | src/components/CodeEditor.tsx:33-162 | from mount, after n ticks the clock shows `max(0, 1800 - n)` and reads back, and it is red iff n > 1500 |
| CodeEditor.SubmittingOnce | src/components/CodeEditor.tsx:257-268 | with the current cursor, leaving the tab and the button both submit, save, stamp the time and stop the clock; later submissions and ticks change nothing |
| CodeEditor.NextAfterSubmit | src/components/CodeEditor.tsx:365-377 | after a submission no event clears the flag or moves the clock |
| CodeEditor.SubmittedStaysFrozen | src/components/CodeEditor.tsx:365-377 | any sequence of events after a submission keeps it submitted with the clock frozen |
| CodeEditor.NextNeverAddsTime | src/components/CodeEditor.tsx:160-163 | no event raises the time left |
| CodeEditor.ReplayNeverAddsTime | src/components/CodeEditor.tsx:160-163 | no sequence of events raises the time left |
| CodeEditor.Received | src/components/CodeEditor.tsx:297 | the replies to the first n requests of a run |
| CodeEditor.RunCode | src/components/CodeEditor.tsx:294-301 | blank code changes nothing; a state still running keeps the old results, and new results come only with a finished run; the code, history, clock, submission and selection are untouched |
| CodeEditor.RunClick | src/components/CodeEditor.tsx:294-301 | a click while running, or on blank code, changes nothing; the results change only when a run finishes; the code, history and clock are untouched |
| CodeEditor.NextRunClick | src/components/CodeEditor.tsx:572 | a Run click is ignored while a run is in progress and starts a run otherwise |
| CodeEditor.BlankRunIgnored | src/components/CodeEditor.tsx:295 | code that trims to nothing sends no request and changes nothing |
| CodeEditor.CompletedRunShowsVerdict | src/components/CodeEditor.tsx:294-299 | a fully answered run sends one request per case and shows their verdict, no longer running |
| CodeEditor.ThrownRunSticks | src/components/CodeEditor.tsx:296-299 | a run with a thrown request keeps the old results, stays running, and later Run clicks are ignored |
| CodeEditor.NextAsWritten | src/components/CodeEditor.tsx:365-377 | the page as written: a crash is final; a history read past the end crashes it; leaving the tab submits with the listener's cursor; every other event is `Next`; a change of code refreshes the listener's cursor |
| CodeEditor.LoadedPageListens | src/components/CodeEditor.tsx:129-198 | once the first questions arrive, the starter is the only entry and the listener holds cursor 0 |
| CodeEditor.SaveKeepsListener | src/components/CodeEditor.tsx:365-377 | a save changes none of the listener's dependencies, so the listener keeps its cursor while the save itself is the button's save |
| CodeEditor.StaleListenerBreaksCursor | src/components/CodeEditor.tsx:52-68 | once questions are loaded, two saves and leaving the tab leave the cursor at 3 over a two-entry history; an undo then crashes the page |
| CodeEditor.LiveCursorSameTrace | src/components/CodeEditor.tsx:52-56 | the same events with the current cursor keep all four entries, leave the cursor on the last, and an undo shows the one before |
| CodeEditor.FreshListenerAgrees | src/components/CodeEditor.tsx:365-377 | from a valid state, with a listener that holds the current cursor, the page as written does what `Next` does and does not crash |
| CodeEditor.AsWrittenKeepsClock | src/components/CodeEditor.tsx:160-163 | on the page as written no event adds time, and none clears a submission or moves its stopped clock |
| CodeEditor.ReplayAsWrittenKeepsClock | src/components/CodeEditor.tsx:365-377 | the same holds over any sequence of events on the page as written, so the stale cursor affects only the history |
| Strings.LeadingWhiteSpaceSpec | src/utils/codeExecution.ts:41 | the counted prefix is all white space and the next character is not |
| Strings.TrailingWhiteSpaceSpec | src/utils/codeExecution.ts:41 | the counted suffix is all white space and the character before it is not |
| Strings.TrimSpec | src/utils/codeExecution.ts:41 | `trim` removes a white-space prefix and suffix and keeps a middle that starts and ends with non-white space |
| Strings.TrimIdempotent | src/utils/codeExecution.ts:50 | trimming twice is trimming once |
| Strings.TrimEmptyIffBlank | src/components/CodeEditor.tsx:295 | `!s.trim()` holds iff every character is white space |
| Strings.DecimalString | src/utils/codeExecution.ts:66 | printed naturals are non-empty digit strings without leading zeros, one digit below 10 and two below 100 |
| Strings.DecimalStringRoundTrip | src/utils/codeExecution.ts:66 | a printed natural reads back as itself |
| Strings.DigitsValueRoundTrip | src/utils/codeExecution.ts:66 | a digit string without leading zeros prints back as itself |
| Strings.PadStart | src/components/layout/Header.tsx:38 | `padStart` reaches the width with the pad character in front and the original at the end |
| Strings.ZeroPaddedValue | src/components/layout/Header.tsx:38 | zero padding keeps a numeral's value |
| Strings.Split | src/components/TestResults.tsx:20 | `split` gives at least one piece |
| Strings.SplitPrefix | src/components/TestResults.tsx:20 | a separator-free leading piece is peeled off as the first piece |

## Left out

- HTTP transport to Judge0: the URL, the headers and the API key. The judge's answers are a parameter, and a missing answer is treated as a thrown request.
- Console logging.
- Supabase access (`fetchQuestions`, `fetchTestCases`, `handleQuestionAdded`). Their outcomes enter only as the events `QuestionsLoaded` and `TestCasesLoaded`. The error paths of these fetches change no modelled state, and the local fallback of `handleQuestionAdded` is not modelled.
- React and browser machinery: effects, `setInterval`, the visibility listener, toasts, the clipboard (`handleShare`), the Blob download, Monaco themes, panel toggles and `useAutoSubmit`. Only the state transitions they trigger are modelled.
- Events are applied one at a time, so asynchronous interleavings are not modelled.
- React compares a selected question by reference, so re-selecting an equal but fresh object re-runs the starter effect. The model compares values.
- CodeExecution.RoundPercent: `Math.round` of a double is modelled as exact round-half-up on the rational `100 * passed / total`. Double rounding can differ at exact halves.
- TestResults.PassRate: the bar width is an exact real, not a double.
- TestResults.ToNumber: `Number` is modelled only for a plain decimal numeral with surrounding white space (the empty string is 0). Signs, fractions, exponents, hex and `Infinity` all read as `NaN`. Only printed naturals reach it.
- Header.FormatTime: defined on non-negative seconds only. The countdown invariant keeps `timeLeft` in 0..1800.
- Header.FormatLastSaved: `new Date()` and `toLocaleTimeString` are parameters (the current time in milliseconds and the locale text).
- CodeEditor.CodeTemplate: the four templates are uninterpreted strings (`Templates`), because their text is program source with no logic to model.
- The editor reads `starterCodeJS`, `starterCodePython`, `starterCodeJava` and `starterCodeCpp`. `src/types/Problem.ts` declares `starter_code_js` and so on. The model has the fields the editor reads. A question whose rows carry only the snake-case fields therefore always falls back to the template.
- `handleUndo` and `handleRedo` are not attached to any button in `src/components/CodeEditor.tsx`. The model still offers them as events, as the history code is written for them.
- Question fields are typed as strings. `src/types/Problem.ts:23` types `test_cases` as `Array<any>`. A test case whose `input` is an object is posted as that object's JSON on stdin and shown with `JSON.stringify`. The model has only string inputs.
- CodeExecution.Execute: a present `expected_output` that is truthy but not a string makes `.trim()` throw at `src/utils/codeExecution.ts:50`. That aborts the run after the reply was answered. The model's expected outputs are text, null or absent, so this abort is not modelled.
- CodeExecution.Execute: `test_cases` that is null makes `for…of` throw at `src/utils/codeExecution.ts:20` before any request. The model's cases are always a sequence.
- The loading and empty-question screens, the theme and the layout are presentation only. While they show, the editor's buttons do not exist. `Next` does not block those events before questions arrive, so the sequence under "## Findings" starts from the page after `QuestionsLoaded`.
- `handleRunCode` has no `try`/`finally`. A thrown request leaves the page in the running state with the Run button disabled for good, and the model keeps that.

## Findings

| source | as written | input that shows it | evidently intended | confidence | as-written member | corrected member |
|---|---|---|---|---|---|---|
| src/components/CodeEditor.tsx:55 | the tab listener is registered again only when `hasSubmitted`, `code`, `language` or `selectedProblem` changes; its `handleSave` slices the history at the cursor of that older render, while the cursor update reads the live value | questions loaded, Save, Save, leave the tab: the history has two entries and the cursor is 3. An Undo would then read `codeHistory[2]`, which is `undefined`, and the render would throw at `code.split`; no control calls `handleUndo`, so the shipped page is left holding two entries and cursor 3, which nothing on it reads | the submission saves with the current cursor, keeping every saved entry with the cursor on the last | not executed | CodeEditor.StaleListenerBreaksCursor | CodeEditor.LiveCursorSameTrace |

=== FILE: code_editor.dfy ===
/** The editor page (`src/components/CodeEditor.tsx`) as a state machine: the
    state the component keeps, one transition per user action, timer tick or
    effect, and the properties those transitions keep. */
module CodeEditor {
  import opened Optional
  import opened Strings
  import CodeExecution
  import Header

  /** The per-language starter code of a question; a field may be absent. */
  datatype Problem = Problem(
    id: string,
    starterCodeJS: Option<string>,
    starterCodePython: Option<string>,
    starterCodeJava: Option<string>,
    starterCodeCpp: Option<string>)

  /** The four built-in templates of `getCodeTemplate`, as data. */
  datatype Templates = Templates(javascript: string, python: string, java: string, cpp: string)

  /** `getCodeTemplate(language)`: the built-in template, or `''` for a language
      it does not know. */
  function CodeTemplate(templates: Templates, language: string): (r: string)
    ensures language == "javascript" ==> r == templates.javascript
    ensures language == "python" ==> r == templates.python
    ensures language == "java" ==> r == templates.java
    ensures language == "cpp" ==> r == templates.cpp
    ensures language !in {"javascript", "python", "java", "cpp"} ==> r == ""
  {
    match language
    case "javascript" => templates.javascript
    case "python" => templates.python
    case "java" => templates.java
    case "cpp" => templates.cpp
    case _ => ""
  }

  /** `field || fallback` for an optional string: absent and empty both fall back. */
  function OrElse(field: Option<string>, fallback: string): (r: string)
    ensures field.Some? && field.value != "" ==> r == field.value
    ensures !(field.Some? && field.value != "") ==> r == fallback
  {
    if field.Some? && field.value != "" then field.value else fallback
  }

  /** The starter's own field for a supported language, absent otherwise. */
  function StarterField(p: Problem, language: string): Option<string> {
    match language
    case "javascript" => p.starterCodeJS
    case "python" => p.starterCodePython
    case "java" => p.starterCodeJava
    case "cpp" => p.starterCodeCpp
    case _ => None
  }

  /** The code the starter-code effect installs: the selected question's own
      starter for the current language when that is a non-empty string, and the
      built-in template in every other case, including when no question is
      selected and when the language is unknown (then it is `''`). */
  function StarterCode(selected: Option<Problem>, language: string, templates: Templates): (r: string)
    ensures var field := if selected.Some? then StarterField(selected.value, language) else None;
            && (field.Some? && field.value != "" ==> r == field.value)
            && (!(field.Some? && field.value != "") ==> r == CodeTemplate(templates, language))
    ensures language !in {"javascript", "python", "java", "cpp"} ==> r == ""
  {
    var template := CodeTemplate(templates, language);
    match selected
    case None => template
    case Some(p) =>
      match language
      case "javascript" => OrElse(p.starterCodeJS, template)
      case "python" => OrElse(p.starterCodePython, template)
      case "java" => OrElse(p.starterCodeJava, template)
      case "cpp" => OrElse(p.starterCodeCpp, template)
      case _ => template
  }

  /** `questions.find(p => p.id === id)`: the first question with that id. */
  function FindProblem(questions: seq<Problem>, id: string): (found: Option<Problem>)
    ensures found.Some? <==> exists i :: 0 <= i < |questions| && questions[i].id == id
    ensures found.Some? ==> found.value.id == id && found.value in questions
    ensures found.Some? ==>
              exists i :: 0 <= i < |questions| && questions[i] == found.value
                          && forall j :: 0 <= j < i ==> questions[j].id != id
  {
    if questions == [] then None
    else if questions[0].id == id then Some(questions[0])
    else
      var r := FindProblem(questions[1..], id);
      assert forall i :: 1 <= i < |questions| ==> questions[1..][i - 1] == questions[i];
      if r.Some? then
        assert exists i :: 0 <= i < |questions[1..]| && questions[1..][i] == r.value
                           && forall j :: 0 <= j < i ==> questions[1..][j].id != id;
        r
      else r
  }

  /** The extension of the downloaded `solution.<ext>` file. */
  function Extension(language: string): (ext: string)
    ensures language == "javascript" ==> ext == "js"
    ensures language == "python" ==> ext == "py"
    ensures language == "java" ==> ext == "java"
    ensures ext == "cpp" <==> language !in {"javascript", "python", "java"}
  {
    if language == "javascript" then "js"
    else if language == "python" then "py"
    else if language == "java" then "java"
    else "cpp"
  }

  /** Each of the three named languages gets its own extension. */
  lemma ExtensionDistinguishes(a: string, b: string)
    requires a in {"javascript", "python", "java"} && Extension(a) == Extension(b)
    ensures a == b
  {
  }

  // ---------------------------------------------------------------- state

  /** The component's state that the modelled behaviour reads or writes. */
  datatype Editor = Editor(
    templates: Templates,
    questions: seq<Problem>,
    selected: Option<Problem>,
    language: string,
    code: string,
    history: seq<string>,
    index: int,
    testCases: seq<CodeExecution.TestCase>,
    results: Option<CodeExecution.ExecutionResult>,
    isRunning: bool,
    timeLeft: int,
    timerRunning: bool,
    lastSaved: Option<int>,
    hasSubmitted: bool)

  /** Thirty minutes, in seconds. */
  const Duration: int := 1800

  /** The state on first render, before any effect has run. */
  function Initial(templates: Templates): (s: Editor)
    ensures s.history == [] && s.index == -1 && s.timeLeft == Duration && s.timerRunning
  {
    Editor(templates, [], None, "javascript", "", [], -1, [], None, false, Duration, true, None, false)
  }

  /** The starter-code effect: the starter becomes the code and the whole history. */
  function LoadStarter(s: Editor): (t: Editor)
    ensures t.code == StarterCode(s.selected, s.language, s.templates)
    ensures t.history == [t.code] && t.index == 0
    ensures t == s.(code := t.code, history := t.history, index := t.index)
  {
    var starter := StarterCode(s.selected, s.language, s.templates);
    s.(code := starter, history := [starter], index := 0)
  }

  /** The state once the mount effects have run. */
  function Mounted(templates: Templates): Editor {
    LoadStarter(Initial(templates))
  }

  /** `handleSave` run with history cursor `cursor`: the save time is stamped,
      the entries after entry `cursor` are dropped, the code is appended, and
      the cursor state is advanced by one. The button's handler reads the
      current cursor; the tab listener may hold an older one. */
  function SaveWith(s: Editor, cursor: int, nowMs: int): (t: Editor)
    ensures t.index == s.index + 1 && t.lastSaved == Some(nowMs)
    ensures |t.history| > 0 && t.history[|t.history| - 1] == s.code
    ensures |t.history| <= |s.history| + 1
    ensures -1 <= cursor < |s.history| ==> t.history == s.history[..cursor + 1] + [s.code]
    ensures t == s.(history := t.history, index := t.index, lastSaved := t.lastSaved)
  {
    var keep := SliceEnd(|s.history|, cursor + 1);
    s.(lastSaved := Some(nowMs), history := s.history[..keep] + [s.code], index := s.index + 1)
  }

  /** `handleSave` from the button: with the cursor on an entry (or on an empty
      history), the entries after it are dropped, the code is appended and
      becomes the current entry. */
  function Save(s: Editor, nowMs: int): (t: Editor)
    ensures t.lastSaved == Some(nowMs) && t.index == s.index + 1
    ensures -1 <= s.index < |s.history| ==>
              && t.history == s.history[..s.index + 1] + [s.code]
              && t.index == |t.history| - 1
              && t.history[t.index] == s.code
    ensures t.code == s.code && t.results == s.results && t.timeLeft == s.timeLeft
  {
    SaveWith(s, s.index, nowMs)
  }

  /** Where JavaScript's `a.slice(0, end)` stops on an array of length `len`: a
      negative end counts back from the length, and the result is clamped to
      the array. */
  function SliceEnd(len: nat, end: int): (k: nat)
    ensures k <= len
    ensures 0 <= end <= len ==> k == end
  {
    if end < 0 then (if len + end < 0 then 0 else len + end)
    else if end > len then len
    else end
  }

  /** `handleUndo`: step back one entry, if there is one. The source reads
      `codeHistory[currentHistoryIndex - 1]` without checking it is there;
      the precondition is exactly that read. */
  function Undo(s: Editor): (t: Editor)
    requires s.index > 0 ==> s.index - 1 < |s.history|
    ensures s.index > 0 ==> t.index == s.index - 1 && t.code == s.history[t.index]
    ensures s.index <= 0 ==> t == s
    ensures t == s.(index := t.index, code := t.code)
  {
    if s.index > 0 then s.(index := s.index - 1, code := s.history[s.index - 1]) else s
  }

  /** `handleRedo`: step forward one entry, if there is one. The precondition
      is exactly the read `codeHistory[currentHistoryIndex + 1]`. */
  function Redo(s: Editor): (t: Editor)
    requires s.index < |s.history| - 1 ==> 0 <= s.index + 1
    ensures s.index < |s.history| - 1 ==> t.index == s.index + 1 && t.code == s.history[t.index]
    ensures s.index >= |s.history| - 1 ==> t == s
    ensures t == s.(index := t.index, code := t.code)
  {
    if s.index < |s.history| - 1 then s.(index := s.index + 1, code := s.history[s.index + 1]) else s
  }

  /** `handleReset`: back to the built-in template with no results and a fresh
      history. */
  function Reset(s: Editor): (t: Editor)
    ensures t.code == CodeTemplate(s.templates, s.language) && t.results.None?
    ensures t.history == [t.code] && t.index == 0
    ensures t.timeLeft == s.timeLeft && t.hasSubmitted == s.hasSubmitted && t.lastSaved == s.lastSaved
    ensures t.selected == s.selected && t.language == s.language
  {
    var template := CodeTemplate(s.templates, s.language);
    s.(code := template, results := None, history := [template], index := 0)
  }

  /** One second of the countdown: never below zero, nothing once stopped. */
  function Tick(s: Editor): (t: Editor)
    ensures !s.timerRunning ==> t == s
    ensures s.timerRunning && s.timeLeft > 0 ==> t.timeLeft == s.timeLeft - 1
    ensures 0 <= s.timeLeft ==> 0 <= t.timeLeft <= s.timeLeft
    ensures t == s.(timeLeft := t.timeLeft)
  {
    if s.timerRunning then s.(timeLeft := if s.timeLeft - 1 < 0 then 0 else s.timeLeft - 1) else s
  }

  /** `handleSubmit` run with history cursor `cursor`: mark submitted, save with
      that cursor, stop the countdown. */
  function SubmitWith(s: Editor, cursor: int, nowMs: int): (t: Editor)
    ensures t.hasSubmitted && !t.timerRunning && t.lastSaved == Some(nowMs)
    ensures t.index == s.index + 1 && |t.history| > 0 && t.history[|t.history| - 1] == s.code
    ensures -1 <= cursor < |s.history| ==> t.history == s.history[..cursor + 1] + [s.code]
    ensures t.code == s.code && t.timeLeft == s.timeLeft && t.results == s.results
  {
    SaveWith(s.(hasSubmitted := true), cursor, nowMs).(timerRunning := false)
  }

  /** `handleSubmit` from the button: mark submitted, save, stop the countdown. */
  function Submit(s: Editor, nowMs: int): (t: Editor)
    ensures t.hasSubmitted && !t.timerRunning && t.lastSaved == Some(nowMs)
    ensures -1 <= s.index < |s.history| ==>
              && t.history == s.history[..s.index + 1] + [s.code]
              && t.index == |t.history| - 1
    ensures t.code == s.code && t.timeLeft == s.timeLeft
  {
    SubmitWith(s, s.index, nowMs)
  }

  /** The "Submit" button is disabled after a submission, and leaving the tab
      submits only if nothing was submitted yet. */
  function SubmitOnce(s: Editor, nowMs: int): (t: Editor)
    ensures t.hasSubmitted
    ensures s.hasSubmitted ==> t == s
    ensures !s.hasSubmitted ==>
              && !t.timerRunning && t.lastSaved == Some(nowMs)
              && |t.history| > 0 && t.history[|t.history| - 1] == s.code
  {
    if s.hasSubmitted then s else Submit(s, nowMs)
  }

  /** The judge's reply to request `i` of a run: the `i`-th of the replies it
      gives, a request beyond them failing as a network error does. */
  function ReplyAt(replies: seq<CodeExecution.Reply>, i: nat): CodeExecution.Reply {
    if i < |replies| then replies[i] else CodeExecution.Thrown
  }

  /** The replies to the first `n` requests. */
  function Received(replies: seq<CodeExecution.Reply>, n: nat): (rs: seq<CodeExecution.Reply>)
    ensures |rs| == n && forall i :: 0 <= i < n ==> rs[i] == ReplyAt(replies, i)
  {
    if n == 0 then [] else Received(replies, n - 1) + [ReplyAt(replies, n - 1)]
  }

  /** `handleRunCode`: blank code does nothing; otherwise the cases are run and a
      finished run's result replaces the shown one. A run that throws never
      reaches `setIsRunning(false)`: the state stays "running". */
  function RunCode(s: Editor, replies: seq<CodeExecution.Reply>): (t: Editor)
    ensures Trim(s.code) == "" ==> t == s
    ensures t.isRunning ==> t.results == s.results
    ensures t.results != s.results ==> t.results.Some? && !t.isRunning
    ensures t.code == s.code && t.history == s.history && t.index == s.index
    ensures t.timeLeft == s.timeLeft && t.hasSubmitted == s.hasSubmitted && t.timerRunning == s.timerRunning
    ensures t.selected == s.selected && t.questions == s.questions && t.lastSaved == s.lastSaved
  {
    if Trim(s.code) == "" then s
    else
      var run := CodeExecution.Execute(s.code, s.language, s.testCases, Received(replies, |s.testCases|));
      match run
      case Completed(_, result) => s.(results := Some(result), isRunning := false)
      case Aborted(_) => s.(isRunning := true)
  }

  /** The "Run" button is disabled while a run is in progress. */
  function RunClick(s: Editor, replies: seq<CodeExecution.Reply>): (t: Editor)
    ensures s.isRunning || Trim(s.code) == "" ==> t == s
    ensures t.isRunning ==> t.results == s.results
    ensures t.code == s.code && t.history == s.history && t.timeLeft == s.timeLeft
  {
    if s.isRunning then s else RunCode(s, replies)
  }

  /** The requests a click on "Run" sends, given the judge's replies. */
  function SentRequests(s: Editor, replies: seq<CodeExecution.Reply>): seq<CodeExecution.Request> {
    if Trim(s.code) == "" then []
    else CodeExecution.Execute(s.code, s.language, s.testCases, Received(replies, |s.testCases|)).requests
  }

  // ---------------------------------------------------------------- events

  datatype Event =
    | QuestionsLoaded(data: seq<Problem>)
    | ProblemChosen(id: string)
    | LanguageChosen(language: string)
    | TestCasesLoaded(cases: seq<CodeExecution.TestCase>)
    | Edited(value: Option<string>)
    | SaveClicked(nowMs: int)
    | UndoClicked
    | RedoClicked
    | ResetClicked
    | TimerTick
    | RunClicked(replies: seq<CodeExecution.Reply>)
    | SubmitClicked(nowMs: int)
    | TabHidden(nowMs: int)

  /** A new selection or language re-runs the starter-code effect; setting the
      same value again does not. */
  function Select(s: Editor, selected: Option<Problem>, language: string): (t: Editor)
    ensures selected == s.selected && language == s.language ==> t == s
    ensures t.selected == selected && t.language == language
    ensures selected != s.selected || language != s.language ==>
              && t.code == StarterCode(selected, language, s.templates)
              && t.history == [t.code] && t.index == 0
    ensures t.timeLeft == s.timeLeft && t.hasSubmitted == s.hasSubmitted && t.results == s.results
  {
    if selected == s.selected && language == s.language then s
    else LoadStarter(s.(selected := selected, language := language))
  }

  /** The history reads an event makes are defined: undo and redo index the
      history without a bounds check. */
  predicate ReadsDefined(s: Editor, e: Event) {
    match e
    case UndoClicked => s.index > 0 ==> s.index - 1 < |s.history|
    case RedoClicked => s.index < |s.history| - 1 ==> 0 <= s.index + 1
    case _ => true
  }

  /** The state after one event, every handler reading the current state. */
  function Next(s: Editor, e: Event): (t: Editor)
    requires ReadsDefined(s, e)
  {
    match e
    case QuestionsLoaded(data) =>
      if |data| > 0 then Select(s.(questions := data), Some(data[0]), s.language) else s
    case ProblemChosen(id) =>
      var found := FindProblem(s.questions, id);
      if found.Some? then Select(s, found, s.language) else s
    case LanguageChosen(language) => Select(s, s.selected, language)
    case TestCasesLoaded(cases) => s.(testCases := cases)
    case Edited(value) => s.(code := value.GetOr(""))
    case SaveClicked(nowMs) => Save(s, nowMs)
    case UndoClicked => Undo(s)
    case RedoClicked => Redo(s)
    case ResetClicked => Reset(s)
    case TimerTick => Tick(s)
    case RunClicked(replies) => RunClick(s, replies)
    case SubmitClicked(nowMs) => SubmitOnce(s, nowMs)
    case TabHidden(nowMs) => SubmitOnce(s, nowMs)
  }

  /** What every reachable state satisfies: the history cursor points into the
      history (or the history is still empty), the countdown is within its range,
      a submission has stopped the timer and stamped a save, and the selected
      question is one of the loaded questions. */
  predicate Valid(s: Editor) {
    && ((s.history == [] && s.index == -1) || 0 <= s.index < |s.history|)
    && 0 <= s.timeLeft <= Duration
    && (s.hasSubmitted ==> !s.timerRunning && s.lastSaved.Some?)
    && (s.selected.Some? ==> s.selected.value in s.questions)
  }

  lemma InitialValid(templates: Templates)
    ensures Valid(Initial(templates)) && Valid(Mounted(templates))
  {
  }

  /** A new selection taken from the loaded questions keeps the state valid. */
  lemma SelectValid(s: Editor, selected: Option<Problem>, language: string)
    requires Valid(s.(selected := selected))
    ensures Valid(Select(s, selected, language))
  {
  }

  lemma QuestionsLoadedValid(s: Editor, data: seq<Problem>)
    requires Valid(s)
    ensures Valid(Next(s, QuestionsLoaded(data)))
  {
    if |data| > 0 {
      assert data[0] in data;
      SelectValid(s.(questions := data), Some(data[0]), s.language);
    }
  }

  /** Events that only touch the code, its history, the results or the clock
      keep the state valid. */
  lemma EditingValid(s: Editor, e: Event)
    requires Valid(s)
    requires !e.QuestionsLoaded? && !e.ProblemChosen? && !e.LanguageChosen?
    ensures Valid(Next(s, e))
  {
  }

  lemma NextValid(s: Editor, e: Event)
    requires Valid(s)
    ensures Valid(Next(s, e))
  {
    match e
    case QuestionsLoaded(data) => QuestionsLoadedValid(s, data);
    case ProblemChosen(id) =>
      var found := FindProblem(s.questions, id);
      if found.Some? {
        SelectValid(s, found, s.language);
      }
    case LanguageChosen(language) =>
      SelectValid(s, s.selected, language);
    case _ => EditingValid(s, e);
  }

  /** The state after a sequence of events, applied in order. */
  function Replay(s: Editor, events: seq<Event>): (t: Editor)
    requires Valid(s)
    ensures Valid(t)
  {
    if events == [] then s
    else
      var before := Replay(s, events[..|events| - 1]);
      NextValid(before, events[|events| - 1]);
      Next(before, events[|events| - 1])
  }

  lemma ReplayExtend(s: Editor, events: seq<Event>, e: Event)
    requires Valid(s)
    ensures Replay(s, events + [e]) == Next(Replay(s, events), e)
  {
    assert (events + [e])[..|events|] == events;
  }

  // ---------------------------------------------------------------- history

  /** Saving keeps the entries up to the current one, appends the code, makes it
      current, and leaves nothing to redo. */
  lemma SaveAppends(s: Editor, nowMs: int)
    requires Valid(s)
    ensures var t := Next(s, SaveClicked(nowMs));
            && t.history == s.history[..s.index + 1] + [s.code]
            && t.index == s.index + 1 == |t.history| - 1
            && t.history[t.index] == s.code
            && t.lastSaved == Some(nowMs)
            && Redo(t) == t
  {
  }

  /** Undo then redo from a saved entry returns to the same state. */
  lemma UndoThenRedo(s: Editor)
    requires Valid(s) && s.index > 0 && s.code == s.history[s.index]
    ensures Next(Next(s, UndoClicked), RedoClicked) == s
  {
  }

  /** Redo then undo from a saved entry returns to the same state. */
  lemma RedoThenUndo(s: Editor)
    requires Valid(s) && s.index < |s.history| - 1 && s.code == s.history[s.index]
    ensures Next(Next(s, RedoClicked), UndoClicked) == s
  {
  }

  /** Undo and redo move the cursor by at most one and never change the
      history; each shows the entry the cursor lands on, and does nothing at
      the corresponding end. */
  lemma UndoRedoMoveCursor(s: Editor)
    requires Valid(s)
    ensures var u, r := Next(s, UndoClicked), Next(s, RedoClicked);
            && u.history == s.history && r.history == s.history
            && (s.index > 0 ==> u.index == s.index - 1 && u.code == s.history[u.index])
            && (s.index <= 0 ==> u == s)
            && (s.index < |s.history| - 1 ==> r.index == s.index + 1 && r.code == s.history[r.index])
            && (s.index == |s.history| - 1 ==> r == s)
  {
  }

  /** Reset installs the template as the only history entry and clears the
      results; afterwards there is nothing to undo or redo. */
  lemma ResetClears(s: Editor)
    requires Valid(s)
    ensures var t := Next(s, ResetClicked);
            && t.code == CodeTemplate(s.templates, s.language)
            && t.history == [t.code] && t.index == 0 && t.results.None?
            && Next(t, UndoClicked) == t && Next(t, RedoClicked) == t
  {
  }

  /** After the starter-code effect the code is the starter and is the only
      history entry. */
  lemma StarterLoadsFreshHistory(s: Editor, language: string)
    requires Valid(s) && language != s.language
    ensures var t := Next(s, LanguageChosen(language));
            && t.language == language
            && t.code == StarterCode(s.selected, language, s.templates)
            && t.history == [t.code] && t.index == 0
  {
  }

  /** Choosing a question by id selects the first loaded question with that id;
      an unknown id changes nothing. */
  lemma ChoosingAProblem(s: Editor, id: string)
    requires Valid(s)
    ensures var t := Next(s, ProblemChosen(id));
            && (FindProblem(s.questions, id).Some? ==> t.selected == FindProblem(s.questions, id))
            && t.language == s.language
            && (t.selected.Some? && t.selected != s.selected ==> t.selected.value.id == id)
            && ((forall i :: 0 <= i < |s.questions| ==> s.questions[i].id != id) ==> t == s)
            && (t.selected != s.selected ==> t.code == StarterCode(t.selected, s.language, s.templates))
  {
  }

  // ---------------------------------------------------------------- countdown

  /** While the timer runs, `n` ticks take `n` seconds off, stopping at zero. */
  lemma {:induction false} TicksCountDown(s: Editor, n: nat)
    requires Valid(s) && s.timerRunning
    ensures Replay(s, seq(n, _ => TimerTick)).timeLeft == (if s.timeLeft - n < 0 then 0 else s.timeLeft - n)
    ensures Replay(s, seq(n, _ => TimerTick)).timerRunning
  {
    if n > 0 {
      var ticks := seq(n, _ => TimerTick);
      assert ticks == seq(n - 1, _ => TimerTick) + [TimerTick];
      TicksCountDown(s, n - 1);
      ReplayExtend(s, seq(n - 1, _ => TimerTick), TimerTick);
    }
  }

  /** From the first render, the header clock after `n` seconds shows the time
      left, and it is red exactly from the 1501st second on. */
  lemma ClockAfterTicks(templates: Templates, n: nat)
    ensures var t := Replay(Mounted(templates), seq(n, _ => TimerTick));
            && t.timeLeft == (if n > Duration then 0 else Duration - n)
            && Header.ParseClock(Header.FormatTime(t.timeLeft)) == Some(t.timeLeft)
            && (Header.TimerRed(t.timeLeft) <==> n > Duration - 300)
  {
    InitialValid(templates);
    TicksCountDown(Mounted(templates), n);
    var t := Replay(Mounted(templates), seq(n, _ => TimerTick));
    Header.FormatTimeRoundTrip(t.timeLeft);
  }

  // ---------------------------------------------------------------- submission

  /** Submitting (by the button or by leaving the tab) happens once: it saves the
      code, stops the countdown, and later submissions change nothing. */
  lemma SubmittingOnce(s: Editor, nowMs: int, laterMs: int)
    requires Valid(s) && !s.hasSubmitted
    ensures var t := Next(s, TabHidden(nowMs));
            && t == Next(s, SubmitClicked(nowMs))
            && t.hasSubmitted && !t.timerRunning && t.lastSaved == Some(nowMs)
            && t.history[t.index] == s.code
            && Next(t, TabHidden(laterMs)) == t && Next(t, SubmitClicked(laterMs)) == t
            && Next(t, TimerTick) == t
  {
  }

  /** No event undoes a submission or moves a stopped countdown. */
  lemma NextAfterSubmit(s: Editor, e: Event)
    requires Valid(s) && s.hasSubmitted
    ensures Next(s, e).hasSubmitted && Next(s, e).timeLeft == s.timeLeft
  {
    match e
    case QuestionsLoaded(data) =>
    case ProblemChosen(id) =>
    case LanguageChosen(language) =>
    case RunClicked(replies) =>
    case _ =>
  }

  /** Once submitted, the state stays submitted and the countdown stays frozen
      whatever happens next. */
  lemma {:induction false} SubmittedStaysFrozen(s: Editor, events: seq<Event>)
    requires Valid(s) && s.hasSubmitted
    ensures Replay(s, events).hasSubmitted
    ensures Replay(s, events).timeLeft == s.timeLeft
  {
    if events != [] {
      var n := |events| - 1;
      SubmittedStaysFrozen(s, events[..n]);
      NextAfterSubmit(Replay(s, events[..n]), events[n]);
    }
  }

  /** No event adds time to the countdown. */
  lemma NextNeverAddsTime(s: Editor, e: Event)
    requires Valid(s)
    ensures Next(s, e).timeLeft <= s.timeLeft
  {
  }

  /** No sequence of events adds time to the countdown. */
  lemma {:induction false} ReplayNeverAddsTime(s: Editor, events: seq<Event>)
    requires Valid(s)
    ensures Replay(s, events).timeLeft <= s.timeLeft
  {
    if events != [] {
      var n := |events| - 1;
      ReplayNeverAddsTime(s, events[..n]);
      NextNeverAddsTime(Replay(s, events[..n]), events[n]);
    }
  }

  // ---------------------------------------------------------------- running

  /** A click on "Run" while a run is in progress is ignored; otherwise it
      starts a run. */
  lemma NextRunClick(s: Editor, replies: seq<CodeExecution.Reply>)
    ensures s.isRunning ==> Next(s, RunClicked(replies)) == s
    ensures !s.isRunning ==> Next(s, RunClicked(replies)) == RunCode(s, replies)
  {
    assert Next(s, RunClicked(replies)) == RunClick(s, replies);
  }

  /** Clicking "Run" on code that trims to nothing (white space only, by
      `TrimEmptyIffBlank`) sends nothing and changes nothing. */
  lemma BlankRunIgnored(s: Editor, replies: seq<CodeExecution.Reply>)
    requires Valid(s) && Trim(s.code) == ""
    ensures Next(s, RunClicked(replies)) == s && SentRequests(s, replies) == []
  {
    NextRunClick(s, replies);
  }

  /** A run whose every request is answered sends one request per case, in
      order, shows the verdict of those answers and ends the running state. */
  lemma CompletedRunShowsVerdict(s: Editor, replies: seq<CodeExecution.Reply>)
    requires Valid(s) && !s.isRunning && Trim(s.code) != ""
    requires forall i :: 0 <= i < |s.testCases| ==> ReplyAt(replies, i).Answered?
    ensures var t, received := Next(s, RunClicked(replies)), Received(replies, |s.testCases|);
            && SentRequests(s, replies) == CodeExecution.Requests(s.code, s.language, s.testCases)
            && t.results == Some(CodeExecution.Verdict(s.testCases, CodeExecution.Bodies(received)))
            && !t.isRunning
  {
    NextRunClick(s, replies);
    var received := Received(replies, |s.testCases|);
    assert CodeExecution.FirstThrown(received).None?;
  }

  /** A run in which some request throws leaves the page running with the
      previous results shown, and every later click on "Run" is ignored. */
  lemma ThrownRunSticks(s: Editor, replies: seq<CodeExecution.Reply>, again: seq<CodeExecution.Reply>)
    requires Valid(s) && !s.isRunning && Trim(s.code) != ""
    requires exists i :: 0 <= i < |s.testCases| && ReplyAt(replies, i).Thrown?
    ensures var t := Next(s, RunClicked(replies));
            && t.isRunning && t.results == s.results
            && 0 < |SentRequests(s, replies)| <= |s.testCases|
            && Next(t, RunClicked(again)) == t
  {
    NextRunClick(s, replies);
    var received := Received(replies, |s.testCases|);
    var i :| 0 <= i < |s.testCases| && ReplyAt(replies, i).Thrown?;
    assert received[i].Thrown?;
  }

  // ---------------------------------------------------------------- the page as written

  /** The page as the component is written. The `visibilitychange` listener is
      registered again only when `hasSubmitted`, `code`, `language` or
      `selectedProblem` changes, and the `handleSubmit` it calls saves with the
      history cursor of the render that registered it; the cursor itself is
      advanced from its current value. A history read past the end makes the
      code `undefined`, and the next render throws at `code.split`. */
  datatype Page = Live(editor: Editor, listenerIndex: int) | Crashed

  /** The cursor the listener holds once the page has moved from `s` to `t`.
      A new code or submission flag re-registers it with the cursor of `t`. A
      new selection or language alone re-registers it in the render before the
      starter-code effect, with the cursor of `s`. Otherwise it is kept. */
  function Relisten(s: Editor, t: Editor, listener: int): int {
    if t.code != s.code || t.hasSubmitted != s.hasSubmitted then t.index
    else if t.selected != s.selected || t.language != s.language then s.index
    else listener
  }

  /** The page after the mount effects: the first render's listener holds the
      initial cursor until the starter changes the code. */
  function MountedPage(templates: Templates): Page {
    Live(Mounted(templates), Relisten(Initial(templates), Mounted(templates), -1))
  }

  /** One event on the page as written. Leaving the tab submits with the
      listener's cursor; every other event behaves as `Next`. */
  function NextAsWritten(p: Page, e: Event): (r: Page)
    ensures p.Crashed? ==> r.Crashed?
    ensures p.Live? && !ReadsDefined(p.editor, e) ==> r.Crashed?
    ensures p.Live? && ReadsDefined(p.editor, e) && !(e.TabHidden? && !p.editor.hasSubmitted) ==>
              r.Live? && r.editor == Next(p.editor, e)
    ensures p.Live? && e.TabHidden? && !p.editor.hasSubmitted ==>
              r.Live? && r.editor == SubmitWith(p.editor, p.listenerIndex, e.nowMs)
    ensures r.Live? && p.Live? && r.editor.code != p.editor.code ==> r.listenerIndex == r.editor.index
  {
    match p
    case Crashed => Crashed
    case Live(s, listener) =>
      if !ReadsDefined(s, e) then Crashed
      else
        var t := if e.TabHidden? && !s.hasSubmitted then SubmitWith(s, listener, e.nowMs) else Next(s, e);
        Live(t, Relisten(s, t, listener))
  }

  /** Once the first questions arrive, the starter is the code and the only
      history entry, and the listener holds cursor 0. */
  lemma LoadedPageListens(templates: Templates, data: seq<Problem>)
    requires |data| > 0
    ensures var p := NextAsWritten(MountedPage(templates), QuestionsLoaded(data));
            && p.Live? && !p.editor.hasSubmitted
            && p.editor.history == [p.editor.code] && p.editor.index == 0
            && p.listenerIndex == 0
  {
  }

  /** A save on the page as written keeps the listener: the code, the
      selection, the language and the submission flag are all unchanged. */
  lemma SaveKeepsListener(p: Page, nowMs: int)
    requires p.Live?
    ensures var r := NextAsWritten(p, SaveClicked(nowMs));
            && r.Live? && r.listenerIndex == p.listenerIndex
            && r.editor == Save(p.editor, nowMs)
            && r.editor.hasSubmitted == p.editor.hasSubmitted
  {
  }

  /** Questions loaded, two saves and then leaving the tab: the listener still
      holds the cursor from before the saves, so the submission cuts the
      history short while the cursor moves past its end, and an undo then
      reads an entry that is not there. */
  lemma StaleListenerBreaksCursor(templates: Templates, data: seq<Problem>)
    requires |data| > 0
    ensures var p := NextAsWritten(NextAsWritten(NextAsWritten(NextAsWritten(MountedPage(templates),
                       QuestionsLoaded(data)), SaveClicked(1)), SaveClicked(2)), TabHidden(3));
            && p.Live? && p.editor.hasSubmitted
            && p.editor.index == 3 && |p.editor.history| == 2
            && !Valid(p.editor)
            && NextAsWritten(p, UndoClicked) == Crashed
  {
    var p0 := NextAsWritten(MountedPage(templates), QuestionsLoaded(data));
    LoadedPageListens(templates, data);
    var p1 := NextAsWritten(p0, SaveClicked(1));
    SaveKeepsListener(p0, 1);
    var p2 := NextAsWritten(p1, SaveClicked(2));
    SaveKeepsListener(p1, 2);
    assert p2.listenerIndex == 0 && |p2.editor.history| == 3 && p2.editor.index == 2;
    var p3 := NextAsWritten(p2, TabHidden(3));
    assert p3.editor == SubmitWith(p2.editor, 0, 3);
    assert |p3.editor.history| == 2 && p3.editor.index == 3;
    assert !ReadsDefined(p3.editor, UndoClicked);
  }

  /** The same events with the cursor read when the tab is left: the submission
      keeps every saved entry, the cursor stays on the last one and an undo
      shows the entry before it. */
  lemma LiveCursorSameTrace(templates: Templates, data: seq<Problem>)
    requires |data| > 0
    ensures var t := Next(Next(Next(Next(Mounted(templates), QuestionsLoaded(data)),
                       SaveClicked(1)), SaveClicked(2)), TabHidden(3));
            && t.hasSubmitted && t.index == 3 && |t.history| == 4 && Valid(t)
            && Next(t, UndoClicked).code == t.history[2]
  {
  }

  /** From a valid state, with a listener that holds the current cursor when
      the tab is left, the page as written and `Next` agree on the event, and
      the page does not crash. */
  lemma FreshListenerAgrees(s: Editor, listener: int, e: Event)
    requires Valid(s) && (e.TabHidden? ==> listener == s.index)
    ensures NextAsWritten(Live(s, listener), e).Live?
    ensures NextAsWritten(Live(s, listener), e).editor == Next(s, e)
  {
  }

  /** The page as written after a sequence of events, applied in order. */
  function ReplayAsWritten(p: Page, events: seq<Event>): (r: Page)
    ensures p.Crashed? ==> r.Crashed?
  {
    if events == [] then p
    else NextAsWritten(ReplayAsWritten(p, events[..|events| - 1]), events[|events| - 1])
  }

  /** What the page as written keeps of the invariant: a clock that is not
      negative, and a submission that has stopped it. */
  predicate ClockSound(s: Editor) {
    0 <= s.timeLeft && (s.hasSubmitted ==> !s.timerRunning)
  }

  /** The stale cursor touches only the history: on the page as written, too,
      no event adds time, and none undoes a submission or moves its clock. */
  lemma AsWrittenKeepsClock(p: Page, e: Event)
    requires p.Live? && ClockSound(p.editor)
    ensures var r := NextAsWritten(p, e);
            r.Live? ==>
              && ClockSound(r.editor)
              && r.editor.timeLeft <= p.editor.timeLeft
              && (p.editor.hasSubmitted ==> r.editor.hasSubmitted && r.editor.timeLeft == p.editor.timeLeft)
  {
    match e
    case QuestionsLoaded(data) =>
    case ProblemChosen(id) =>
    case LanguageChosen(language) =>
    case RunClicked(replies) =>
    case _ =>
  }

  /** The same over any sequence of events on the page as written. */
  lemma {:induction false} ReplayAsWrittenKeepsClock(p: Page, events: seq<Event>)
    requires p.Live? && ClockSound(p.editor)
    ensures var r := ReplayAsWritten(p, events);
            r.Live? ==>
              && ClockSound(r.editor)
              && r.editor.timeLeft <= p.editor.timeLeft
              && (p.editor.hasSubmitted ==> r.editor.hasSubmitted && r.editor.timeLeft == p.editor.timeLeft)
  {
    if events != [] {
      var n := |events| - 1;
      var q := ReplayAsWritten(p, events[..n]);
      ReplayAsWrittenKeepsClock(p, events[..n]);
      if q.Live? {
        AsWrittenKeepsClock(q, events[n]);
      }
    }
  }
}

=== FILE: code_execution.dfy ===
/** The submission verdict builder (`executeCode` in `src/utils/codeExecution.ts`):
    one judge request per test case, the judge's reply reduced to one output
    string by a fixed priority rule, a trimmed comparison with the expected
    output, and the aggregate result record the results panel displays.

    The network is abstracted away: the judge's replies arrive as a sequence
    aligned with the test cases, and a reply that is `Thrown` stands for a
    `fetch` or `.json()` that threw, which aborts the whole run. */
module CodeExecution {
  import opened Optional
  import opened Strings

  // ---------------------------------------------------------------- data

  /** A string-valued JSON field that may also be `null` or missing; the two
      compare alike but display differently. */
  datatype JsonText = Absent | Null | Text(value: string)

  /** A test case as stored with a problem. */
  datatype TestCase = TestCase(input: string, expectedOutput: JsonText)

  /** The fields of the judge's JSON body that `executeCode` reads; each may be
      `null` or absent. */
  datatype Response = Response(stdout: Option<string>, stderr: Option<string>, compileOutput: Option<string>)

  /** What awaiting one submission yields: a parsed body (whatever the HTTP
      status), or an exception from `fetch` or `.json()`. */
  datatype Reply = Answered(body: Response) | Thrown

  /** The JSON body posted for one test case; `languageId` is `None` when the
      language is not in the table, and the key is then left out of the body. */
  datatype Request = Request(sourceCode: string, languageId: Option<int>, stdin: string)

  /** The single output a judge response is reduced to. */
  datatype Outcome = Stdout(text: string) | RuntimeError(text: string) | CompileError(text: string) | NoOutput

  /** One entry of `failedTestCases`: the case's own, untrimmed, input and
      expected output, and the classified actual output. */
  datatype FailedCase = FailedCase(input: string, expected: JsonText, actual: string)

  datatype Status = Success | Error

  /** The record `executeCode` resolves to. */
  datatype ExecutionResult = ExecutionResult(
    status: Status,
    testCasesPassed: string,
    failedTestCases: seq<FailedCase>,
    errorMessage: string,
    suggestions: string,
    correctness: int)

  /** A whole run: the requests issued, in order, and either the result or the
      abort caused by a thrown request (no partial result survives it). */
  datatype Run = Completed(requests: seq<Request>, result: ExecutionResult) | Aborted(requests: seq<Request>)

  const FailureMessage: string := "Some test cases failed."
  const FailureSuggestion: string := "Check your logic and try again."

  // ---------------------------------------------------------------- languages

  /** `languageMap[language]`: the judge's environment id for the four supported
      languages, and `undefined` (here `None`) for every other string. */
  function LanguageId(language: string): (id: Option<int>)
    ensures language == "javascript" ==> id == Some(63)
    ensures language == "python" ==> id == Some(71)
    ensures language == "java" ==> id == Some(62)
    ensures language == "cpp" ==> id == Some(54)
    ensures id.Some? <==> language in {"javascript", "python", "java", "cpp"}
  {
    match language
    case "javascript" => Some(63)
    case "python" => Some(71)
    case "java" => Some(62)
    case "cpp" => Some(54)
    case _ => None
  }

  /** No two supported languages share an environment id, so the id sent with a
      request determines the language it was written in. */
  lemma LanguageIdInjective(a: string, b: string)
    requires LanguageId(a).Some? && LanguageId(a) == LanguageId(b)
    ensures a == b
  {
  }

  // ---------------------------------------------------------------- one case

  /** A JavaScript string field is truthy when it is present and non-empty. */
  predicate Truthy(field: Option<string>) {
    field.Some? && field.value != ""
  }

  /** The priority rule: non-empty `stdout` wins over non-empty `stderr`, which
      wins over non-empty `compile_output`; with none of them there is no
      output. The chosen text is trimmed. */
  function Classify(r: Response): (o: Outcome)
    ensures o.Stdout? <==> Truthy(r.stdout)
    ensures o.RuntimeError? <==> !Truthy(r.stdout) && Truthy(r.stderr)
    ensures o.CompileError? <==> !Truthy(r.stdout) && !Truthy(r.stderr) && Truthy(r.compileOutput)
    ensures o.Stdout? ==> o.text == Trim(r.stdout.value)
    ensures o.RuntimeError? ==> o.text == Trim(r.stderr.value)
    ensures o.CompileError? ==> o.text == Trim(r.compileOutput.value)
  {
    if Truthy(r.stdout) then Stdout(Trim(r.stdout.value))
    else if Truthy(r.stderr) then RuntimeError(Trim(r.stderr.value))
    else if Truthy(r.compileOutput) then CompileError(Trim(r.compileOutput.value))
    else NoOutput
  }

  /** The string an outcome is shown and compared as: the program's own output
      as it is, and otherwise a diagnostic with a fixed prefix, never empty. */
  function Render(o: Outcome): (r: string)
    ensures o.Stdout? ==> r == o.text
    ensures o.RuntimeError? ==> r == "Error: " + o.text
    ensures o.CompileError? ==> r == "Compile Error: " + o.text
    ensures o.NoOutput? ==> r == "No output"
    ensures !o.Stdout? ==> r != ""
  {
    match o
    case Stdout(t) => t
    case RuntimeError(t) => "Error: " + t
    case CompileError(t) => "Compile Error: " + t
    case NoOutput => "No output"
  }

  /** The `output` string `executeCode` computes for one judge response. */
  function ActualOutput(r: Response): string {
    Render(Classify(r))
  }

  /** `(tc.expected_output || '').trim()`: a missing or `null` expected output
      compares as the empty string. */
  function ExpectedOutput(tc: TestCase): string {
    match tc.expectedOutput
    case Text(v) => Trim(v)
    case _ => ""
  }

  /** Whether an actual output string satisfies a case. */
  predicate Matches(tc: TestCase, actual: string) {
    actual == ExpectedOutput(tc)
  }

  predicate Passes(tc: TestCase, r: Response) {
    Matches(tc, ActualOutput(r))
  }

  function FailureOf(tc: TestCase, r: Response): FailedCase {
    FailedCase(tc.input, tc.expectedOutput, ActualOutput(r))
  }

  /** Only a whitespace-only, non-empty `stdout` satisfies a case whose expected
      output is missing or blank: an empty `stdout` is falsy and falls through to
      the other outcomes, whose strings are never empty. */
  lemma BlankExpectationNeedsBlankStdout(tc: TestCase, r: Response)
    requires ExpectedOutput(tc) == ""
    ensures Passes(tc, r) <==> Truthy(r.stdout) && AllWhiteSpace(r.stdout.value)
  {
    if Truthy(r.stdout) {
      TrimEmptyIffBlank(r.stdout.value);
    }
  }

  /** The rendered strings are not a faithful encoding of the outcome: a program
      that prints the judge's diagnostic text, or prints nothing, can match an
      expectation written in those words. */
  lemma RenderConflatesOutcomes(t: string)
    ensures Render(Stdout("Error: " + t)) == Render(RuntimeError(t))
    ensures Render(Stdout("No output")) == Render(NoOutput)
  {
  }

  // ---------------------------------------------------------------- the fold

  /** One compared case: the test case, its classified output, and whether the
      two matched. */
  datatype Checked = Checked(tc: TestCase, actual: string, ok: bool)

  datatype Tally = Tally(passed: nat, failed: seq<FailedCase>)

  function Check(tc: TestCase, actual: string): (c: Checked)
    ensures c.tc == tc && c.actual == actual
    ensures c.ok <==> actual == ExpectedOutput(tc)
  {
    Checked(tc, actual, Matches(tc, actual))
  }

  /** Every case compared with its judge response, in order. */
  function Checks(cases: seq<TestCase>, resps: seq<Response>): (cs: seq<Checked>)
    requires |cases| == |resps|
    ensures |cs| == |cases|
    ensures forall i :: 0 <= i < |cases| ==> cs[i] == Check(cases[i], ActualOutput(resps[i]))
  {
    seq(|cases|, i requires 0 <= i < |cases| => Check(cases[i], ActualOutput(resps[i])))
  }

  function FailureEntry(c: Checked): FailedCase {
    FailedCase(c.tc.input, c.tc.expectedOutput, c.actual)
  }

  /** One case's contribution: a match counts as passed, a mismatch is appended
      to the failures. */
  function Step(t: Tally, c: Checked): Tally {
    if c.ok then Tally(t.passed + 1, t.failed) else Tally(t.passed, t.failed + [FailureEntry(c)])
  }

  /** The accumulated `passed` count and `failedTestCases` list after the given
      compared cases, processed front to back. Every case lands in exactly one
      of the two. */
  function TallyOf(checks: seq<Checked>): (t: Tally)
    ensures t.passed + |t.failed| == |checks|
  {
    if checks == [] then Tally(0, [])
    else
      var n := |checks| - 1;
      Step(TallyOf(checks[..n]), checks[n])
  }

  /** One more case extends the tally the way one loop iteration does. */
  lemma TallyExtend(checks: seq<Checked>, c: Checked)
    ensures TallyOf(checks + [c]) == Step(TallyOf(checks), c)
  {
    assert (checks + [c])[..|checks|] == checks;
  }

  /** The positions of the failing cases, in increasing order. */
  function FailingIndices(checks: seq<Checked>): (idx: seq<nat>)
    ensures forall k :: 0 <= k < |idx| ==> idx[k] < |checks| && !checks[idx[k]].ok
    ensures forall i :: 0 <= i < |checks| && !checks[i].ok ==> i in idx
    ensures forall k, l :: 0 <= k < l < |idx| ==> idx[k] < idx[l]
  {
    if checks == [] then []
    else
      var n := |checks| - 1;
      var idx := FailingIndices(checks[..n]);
      assert forall i :: 0 <= i < n ==> checks[..n][i] == checks[i];
      if checks[n].ok then idx else idx + [n]
  }

  /** The failure list holds exactly the failing cases, in input order. */
  lemma {:induction false} TallyFailuresInOrder(checks: seq<Checked>)
    ensures var t, idx := TallyOf(checks), FailingIndices(checks);
            |t.failed| == |idx|
            && forall k :: 0 <= k < |idx| ==> t.failed[k] == FailureEntry(checks[idx[k]])
  {
    if checks != [] {
      var n := |checks| - 1;
      var pre := checks[..n];
      TallyFailuresInOrder(pre);
      var t0, idx0 := TallyOf(pre), FailingIndices(pre);
      var t, idx := TallyOf(checks), FailingIndices(checks);
      assert t == Step(t0, checks[n]);
      if checks[n].ok {
        assert idx == idx0 && t.failed == t0.failed;
      } else {
        assert idx == idx0 + [n] && t.failed == t0.failed + [FailureEntry(checks[n])];
      }
      forall k | 0 <= k < |idx0| ensures t.failed[k] == FailureEntry(checks[idx[k]]) {
        assert idx[k] == idx0[k] && pre[idx0[k]] == checks[idx0[k]];
      }
    }
  }

  /** The pass count reaches the number of cases exactly when every case matched. */
  lemma {:induction false} TallyAllPassIff(checks: seq<Checked>)
    ensures TallyOf(checks).passed == |checks| <==> forall i :: 0 <= i < |checks| ==> checks[i].ok
  {
    if checks != [] {
      var n := |checks| - 1;
      TallyAllPassIff(checks[..n]);
      assert forall i :: 0 <= i < n ==> checks[..n][i] == checks[i];
    }
  }

  /** `failedTestCases` of a run lists the failing cases in input order, each
      with its untrimmed input and expected output and its classified output. */
  lemma FailedInInputOrder(cases: seq<TestCase>, resps: seq<Response>)
    requires |cases| == |resps|
    ensures var checks := Checks(cases, resps);
            var t, idx := TallyOf(checks), FailingIndices(checks);
            && (forall i :: 0 <= i < |cases| ==> (i in idx <==> !Passes(cases[i], resps[i])))
            && |t.failed| == |idx|
            && forall k :: 0 <= k < |idx| ==> t.failed[k] == FailureOf(cases[idx[k]], resps[idx[k]])
  {
    TallyFailuresInOrder(Checks(cases, resps));
  }

  /** All cases pass exactly when the pass count reaches the number of cases. */
  lemma AllPassIff(cases: seq<TestCase>, resps: seq<Response>)
    requires |cases| == |resps|
    ensures TallyOf(Checks(cases, resps)).passed == |cases|
            <==> forall i :: 0 <= i < |cases| ==> Passes(cases[i], resps[i])
  {
    TallyAllPassIff(Checks(cases, resps));
  }

  // ---------------------------------------------------------------- the result

  /** `Math.round(passed / total * 100)` computed exactly: the integer nearest
      to the percentage, halves rounded up. */
  function RoundPercent(passed: nat, total: nat): (r: int)
    requires passed <= total && 0 < total
    ensures 2 * r * total <= 200 * passed + total < 2 * r * total + 2 * total
    ensures 0 <= r <= 100
  {
    RoundPercentBounds(passed, total);
    (200 * passed + total) / (2 * total)
  }

  lemma RoundPercentBounds(passed: nat, total: nat)
    requires passed <= total && 0 < total
    ensures var r := (200 * passed + total) / (2 * total);
            2 * r * total <= 200 * passed + total < 2 * r * total + 2 * total && 0 <= r <= 100
  {
    var n, d := 200 * passed + total, 2 * total;
    var r := n / d;
    assert d * r + n % d == n && 0 <= n % d < d;
    assert 2 * r * total == d * r;
    assert d * r < d * 101;
    MultiplierBelow(r, 101, d);
  }

  /** Cancelling a positive factor from a strict inequality. */
  lemma MultiplierBelow(q: int, k: int, d: int)
    requires d > 0 && d * q < d * k
    ensures q < k
  {
    if q >= k {
      MultiplyMonotone(k, q, d);
    }
  }

  lemma MultiplyMonotone(a: int, b: int, d: int)
    requires d > 0 && a <= b
    ensures d * a <= d * b
  {
  }

  /** The result record built from the final count. */
  function BuildResult(passed: nat, total: nat, failed: seq<FailedCase>): (res: ExecutionResult)
    requires passed <= total
    ensures res.status == Success <==> passed == total
    ensures res.errorMessage == "" <==> passed == total
    ensures res.suggestions == "" <==> passed == total
    ensures passed < total ==> res.errorMessage == FailureMessage && res.suggestions == FailureSuggestion
    ensures res.testCasesPassed == DecimalString(passed) + "/" + DecimalString(total)
    ensures res.failedTestCases == failed
    ensures 0 <= res.correctness <= 100 && (passed == total ==> res.correctness == 100)
  {
    var allPassed := passed == total;
    ExecutionResult(
      if allPassed then Success else Error,
      DecimalString(passed) + "/" + DecimalString(total),
      failed,
      if allPassed then "" else FailureMessage,
      if allPassed then "" else FailureSuggestion,
      if allPassed then 100 else RoundPercent(passed, total))
  }

  /** The result `executeCode` returns when every request was answered. */
  function Verdict(cases: seq<TestCase>, resps: seq<Response>): ExecutionResult
    requires |cases| == |resps|
  {
    var t := TallyOf(Checks(cases, resps));
    BuildResult(t.passed, |cases|, t.failed)
  }

  /** The verdict's status and messages: success with empty messages exactly when
      every case passes, the two fixed messages otherwise. */
  lemma VerdictStatus(cases: seq<TestCase>, resps: seq<Response>)
    requires |cases| == |resps|
    ensures var v := Verdict(cases, resps);
            var all := forall i :: 0 <= i < |cases| ==> Passes(cases[i], resps[i]);
            && (v.status == Success <==> all)
            && (v.errorMessage == "" <==> all)
            && (v.suggestions == "" <==> all)
            && (!all ==> v.errorMessage == FailureMessage && v.suggestions == FailureSuggestion)
  {
    AllPassIff(cases, resps);
  }

  /** The correctness percentage: 100 when every case passes (an empty list
      included), otherwise the pass ratio rounded to the nearest integer, halves
      up; always within 0..100. */
  lemma VerdictCorrectness(cases: seq<TestCase>, resps: seq<Response>)
    requires |cases| == |resps|
    ensures var v, p, n := Verdict(cases, resps), TallyOf(Checks(cases, resps)).passed, |cases|;
            && 0 <= v.correctness <= 100
            && (p == n ==> v.correctness == 100)
            && (p < n ==> 2 * v.correctness * n <= 200 * p + n < 2 * v.correctness * n + 2 * n)
  {
  }

  /** The pass string `"passed/total"`, the failure count and the pass count
      agree: failures are exactly the cases that did not pass. */
  lemma VerdictCounts(cases: seq<TestCase>, resps: seq<Response>)
    requires |cases| == |resps|
    ensures var v, p := Verdict(cases, resps), TallyOf(Checks(cases, resps)).passed;
            && v.testCasesPassed == DecimalString(p) + "/" + DecimalString(|cases|)
            && p + |v.failedTestCases| == |cases|
            && v.failedTestCases == TallyOf(Checks(cases, resps)).failed
  {
  }

  /** An empty test list is a success at 100%, not a division by zero. */
  lemma EmptyRunSucceeds()
    ensures Verdict([], []) == ExecutionResult(Success, "0/0", [], "", "", 100)
  {
    assert DecimalString(0) == "0";
  }

  /** When every case matches, the verdict is `{success, "N/N", [], '', '', 100}`. */
  lemma AllMatchVerdict(cases: seq<TestCase>, resps: seq<Response>)
    requires |cases| == |resps|
    requires forall i :: 0 <= i < |cases| ==> Passes(cases[i], resps[i])
    ensures Verdict(cases, resps)
            == ExecutionResult(Success, DecimalString(|cases|) + "/" + DecimalString(|cases|), [], "", "", 100)
  {
    AllPassIff(cases, resps);
  }

  // ---------------------------------------------------------------- the run

  /** The request posted for each of the given cases, in order. */
  function Requests(code: string, language: string, cases: seq<TestCase>): (rs: seq<Request>)
    ensures |rs| == |cases|
    ensures forall i :: 0 <= i < |cases| ==> rs[i] == Request(code, LanguageId(language), cases[i].input)
  {
    seq(|cases|, i requires 0 <= i < |cases| => Request(code, LanguageId(language), cases[i].input))
  }

  lemma RequestsExtend(code: string, language: string, cases: seq<TestCase>, n: nat)
    requires n < |cases|
    ensures Requests(code, language, cases[..n + 1])
            == Requests(code, language, cases[..n]) + [Request(code, LanguageId(language), cases[n].input)]
  {
    var a := Requests(code, language, cases[..n + 1]);
    var b := Requests(code, language, cases[..n]) + [Request(code, LanguageId(language), cases[n].input)];
    assert |a| == |b|;
    forall k | 0 <= k < |a| ensures a[k] == b[k] {
      if k < n { assert cases[..n + 1][k] == cases[..n][k]; }
    }
  }

  /** The position of the first reply that threw, if any. */
  function FirstThrown(replies: seq<Reply>): (k: Option<nat>)
    ensures k.Some? ==> k.value < |replies| && replies[k.value].Thrown?
    ensures k.Some? ==> forall j :: 0 <= j < k.value ==> replies[j].Answered?
    ensures k.None? ==> forall j :: 0 <= j < |replies| ==> replies[j].Answered?
  {
    if replies == [] then None
    else if replies[0].Thrown? then Some(0)
    else
      var k := FirstThrown(replies[1..]);
      if k.Some? then Some(k.value + 1) else None
  }

  function Bodies(replies: seq<Reply>): (bs: seq<Response>)
    requires forall j :: 0 <= j < |replies| ==> replies[j].Answered?
    ensures |bs| == |replies| && forall j :: 0 <= j < |replies| ==> bs[j] == replies[j].body
  {
    seq(|replies|, j requires 0 <= j < |replies| && replies[j].Answered? => replies[j].body)
  }

  /** The whole of `executeCode`: one request per attempted case, in case order,
      carrying the submitted code, the table's environment id and that case's
      input. The first thrown request ends the run with no result and no
      further request; a run in which every request is answered attempts every
      case and yields the verdict of the answers. */
  function Execute(code: string, language: string, cases: seq<TestCase>, replies: seq<Reply>): (run: Run)
    requires |replies| == |cases|
    ensures |run.requests| <= |cases|
    ensures forall i :: 0 <= i < |run.requests| ==>
              run.requests[i] == Request(code, LanguageId(language), cases[i].input)
    ensures run.Completed? <==> forall j :: 0 <= j < |replies| ==> replies[j].Answered?
    ensures run.Completed? ==> |run.requests| == |cases|
    ensures run.Aborted? ==>
              && 0 < |run.requests|
              && replies[|run.requests| - 1].Thrown?
              && forall j :: 0 <= j < |run.requests| - 1 ==> replies[j].Answered?
  {
    match FirstThrown(replies)
    case Some(k) => Aborted(Requests(code, language, cases[..k + 1]))
    case None => Completed(Requests(code, language, cases), Verdict(cases, Bodies(replies)))
  }

  lemma ChecksExtend(cases: seq<TestCase>, replies: seq<Reply>, n: nat)
    requires |replies| == |cases| && n < |cases|
    requires forall j :: 0 <= j <= n ==> replies[j].Answered?
    ensures Checks(cases[..n + 1], Bodies(replies[..n + 1]))
            == Checks(cases[..n], Bodies(replies[..n])) + [Check(cases[n], ActualOutput(replies[n].body))]
  {
    var cs, bs := cases[..n + 1], Bodies(replies[..n + 1]);
    var cs0, bs0 := cases[..n], Bodies(replies[..n]);
    var a := Checks(cs, bs);
    var b := Checks(cs0, bs0) + [Check(cases[n], ActualOutput(replies[n].body))];
    assert |a| == n + 1 == |b|;
    forall k | 0 <= k < n + 1 ensures a[k] == b[k] {
      assert a[k] == Check(cs[k], ActualOutput(bs[k]));
      assert cs[k] == cases[k] && bs[k] == replies[k].body;
      if k < n {
        assert cs0[k] == cases[k] && bs0[k] == replies[k].body;
        assert b[k] == Checks(cs0, bs0)[k] == Check(cs0[k], ActualOutput(bs0[k]));
      }
    }
  }

  /** The `if`/`else if` chain that picks the `output` of one judge response. */
  method OutputOf(submission: Response) returns (output: string)
    ensures output == ActualOutput(submission)
  {
    if Truthy(submission.stdout) {
      output := Trim(submission.stdout.value);
    } else if Truthy(submission.stderr) {
      output := "Error: " + Trim(submission.stderr.value);
    } else if Truthy(submission.compileOutput) {
      output := "Compile Error: " + Trim(submission.compileOutput.value);
    } else {
      output := "No output";
    }
  }

  /** `executeCode` as the source writes it: a loop that posts one request per
      case and accumulates `passed` and `failedTestCases`; an exception ends it. */
  method ExecuteCode(code: string, language: string, testCases: seq<TestCase>, replies: seq<Reply>)
    returns (run: Run)
    requires |replies| == |testCases|
    ensures run == Execute(code, language, testCases, replies)
  {
    var languageId := LanguageId(language);
    var passed: nat := 0;
    var failedTestCases: seq<FailedCase> := [];
    var requests: seq<Request> := [];
    var i := 0;
    while i < |testCases|
      invariant 0 <= i <= |testCases|
      invariant requests == Requests(code, language, testCases[..i])
      invariant forall j :: 0 <= j < i ==> replies[j].Answered?
      invariant TallyOf(Checks(testCases[..i], Bodies(replies[..i]))) == Tally(passed, failedTestCases)
    {
      var tc := testCases[i];
      RequestsExtend(code, language, testCases, i);
      requests := requests + [Request(code, languageId, tc.input)];
      if replies[i].Thrown? {
        ExecuteAborts(code, language, testCases, replies, i);
        return Aborted(requests);
      }
      var output := OutputOf(replies[i].body);
      var expected := if tc.expectedOutput.Text? then Trim(tc.expectedOutput.value) else "";
      TallyOfPrefix(testCases, replies, i);
      assert expected == ExpectedOutput(tc);
      if output == expected {
        passed := passed + 1;
      } else {
        failedTestCases := failedTestCases + [FailedCase(tc.input, tc.expectedOutput, output)];
      }
      i := i + 1;
    }
    assert testCases[..|testCases|] == testCases && replies[..|testCases|] == replies;
    ExecuteCompletes(code, language, testCases, replies);
    run := Completed(requests, BuildResult(passed, |testCases|, failedTestCases));
  }

  /** The fold over the first `n + 1` cases is one step past the fold over the
      first `n`. */
  lemma TallyOfPrefix(cases: seq<TestCase>, replies: seq<Reply>, n: nat)
    requires |replies| == |cases| && n < |cases|
    requires forall j :: 0 <= j <= n ==> replies[j].Answered?
    ensures TallyOf(Checks(cases[..n + 1], Bodies(replies[..n + 1])))
            == Step(TallyOf(Checks(cases[..n], Bodies(replies[..n]))),
                    Check(cases[n], ActualOutput(replies[n].body)))
  {
    ChecksExtend(cases, replies, n);
    TallyExtend(Checks(cases[..n], Bodies(replies[..n])), Check(cases[n], ActualOutput(replies[n].body)));
  }

  /** The first thrown reply ends the run with the requests sent so far. */
  lemma ExecuteAborts(code: string, language: string, cases: seq<TestCase>, replies: seq<Reply>, n: nat)
    requires |replies| == |cases| && n < |cases| && replies[n].Thrown?
    requires forall j :: 0 <= j < n ==> replies[j].Answered?
    ensures Execute(code, language, cases, replies) == Aborted(Requests(code, language, cases[..n + 1]))
  {
    assert FirstThrown(replies) == Some(n);
  }

  /** With every reply answered, the run completes with the verdict. */
  lemma ExecuteCompletes(code: string, language: string, cases: seq<TestCase>, replies: seq<Reply>)
    requires |replies| == |cases|
    requires forall j :: 0 <= j < |cases| ==> replies[j].Answered?
    ensures Execute(code, language, cases, replies)
            == Completed(Requests(code, language, cases), Verdict(cases, Bodies(replies)))
  {
    assert FirstThrown(replies) == None;
  }
}

=== FILE: header.dfy ===
/** The header bar (`src/components/layout/Header.tsx`): the countdown clock, the
    "last saved" label and the admin-only controls. */
module Header {
  import opened Optional
  import opened Strings

  // ---------------------------------------------------------------- the clock

  /** A number of whole seconds, zero-padded to at least two digits. */
  function TwoDigits(n: nat): (r: string)
    ensures |r| >= 2 && AllDigits(r)
    ensures n < 100 <==> |r| == 2
    ensures DigitsValue(r) == n
  {
    DecimalStringRoundTrip(n);
    ZeroPaddedValue(DecimalString(n), 2);
    PadStart(DecimalString(n), 2, '0')
  }

  /** `formatTime`: hours, minutes and seconds of a non-negative count of seconds,
      each padded to two digits, separated by colons. */
  function FormatTime(seconds: nat): (r: string)
    ensures |r| >= 8
  {
    var hours := seconds / 3600;
    var minutes := (seconds % 3600) / 60;
    var secs := seconds % 60;
    TwoDigits(hours) + ":" + TwoDigits(minutes) + ":" + TwoDigits(secs)
  }

  /** Reads `"H:MM:SS"` back: three colon-separated digit fields, minutes and
      seconds below 60. */
  function ParseClock(s: string): (seconds: Option<nat>)
  {
    ClockValue(Split(s, ':'))
  }

  function ClockValue(f: seq<string>): (seconds: Option<nat>)
  {
    if |f| == 3 && AllDigits(f[0]) && AllDigits(f[1]) && AllDigits(f[2])
       && DigitsValue(f[1]) < 60 && DigitsValue(f[2]) < 60
    then Some(DurationOf(DigitsValue(f[0]), DigitsValue(f[1]), DigitsValue(f[2])))
    else None
  }

  /** The duration, in seconds, of a clock reading. */
  function DurationOf(hours: nat, minutes: nat, secs: nat): nat {
    hours * 3600 + minutes * 60 + secs
  }

  lemma ClockFieldsValue(h: string, m: string, s: string)
    requires AllDigits(h) && AllDigits(m) && AllDigits(s)
    requires DigitsValue(m) < 60 && DigitsValue(s) < 60
    ensures ClockValue([h, m, s]) == Some(DurationOf(DigitsValue(h), DigitsValue(m), DigitsValue(s)))
  {
    var f := [h, m, s];
    assert f[0] == h && f[1] == m && f[2] == s;
  }

  /** Three digit fields joined by colons split back into the same three. */
  lemma SplitClockFields(h: string, m: string, s: string)
    requires AllDigits(h) && AllDigits(m) && AllDigits(s)
    ensures Split(h + ":" + m + ":" + s, ':') == [h, m, s]
  {
    var tail := m + [':'] + s;
    assert Split(s, ':') == [s] by {
      DigitsHaveNoSeparator(s, ':');
    }
    assert Split(tail, ':') == [m, s] by {
      DigitsHaveNoSeparator(m, ':');
      SplitPrefix(m, ':', s);
    }
    assert Split(h + [':'] + tail, ':') == [h, m, s] by {
      DigitsHaveNoSeparator(h, ':');
      SplitPrefix(h, ':', tail);
    }
    assert h + ":" + m + ":" + s == h + [':'] + tail;
  }

  /** Hours, minutes and seconds recompose the duration. */
  lemma ClockArithmetic(seconds: nat)
    ensures (seconds % 3600) / 60 < 60 && seconds % 60 < 60
    ensures DurationOf(seconds / 3600, (seconds % 3600) / 60, seconds % 60) == seconds
  {
    var r := seconds % 3600;
    assert r == (r / 60) * 60 + r % 60;
    assert r % 60 == seconds % 60 by {
      assert seconds == (seconds / 3600) * 60 * 60 + r;
    }
  }

  /** Padded fields below the carry limits read back as the duration they make. */
  lemma ClockReadBack(hours: nat, minutes: nat, secs: nat)
    requires minutes < 60 && secs < 60
    ensures ParseClock(TwoDigits(hours) + ":" + TwoDigits(minutes) + ":" + TwoDigits(secs))
            == Some(DurationOf(hours, minutes, secs))
  {
    var h, m, s := TwoDigits(hours), TwoDigits(minutes), TwoDigits(secs);
    SplitClockFields(h, m, s);
    assert ParseClock(h + ":" + m + ":" + s) == ClockValue([h, m, s]);
    ClockFieldsValue(h, m, s);
  }

  /** The clock shows the whole duration: reading it back gives the seconds. */
  lemma FormatTimeRoundTrip(seconds: nat)
    ensures ParseClock(FormatTime(seconds)) == Some(seconds)
  {
    ClockArithmetic(seconds);
    ClockReadBack(seconds / 3600, (seconds % 3600) / 60, seconds % 60);
  }

  /** The clock is exactly `HH:MM:SS` (eight characters) below 100 hours, and
      the hour field widens beyond that. */
  lemma FormatTimeWidth(seconds: nat)
    ensures |FormatTime(seconds)| == 8 <==> seconds < 360000
  {
  }

  /** The countdown turns red in its last five minutes. */
  predicate TimerRed(timeLeft: int) {
    timeLeft < 300
  }

  // ---------------------------------------------------------------- last saved

  /** Whole seconds between two millisecond timestamps, rounded down. */
  function ElapsedSeconds(savedMs: int, nowMs: int): (diff: int)
    ensures 1000 * diff <= nowMs - savedMs < 1000 * (diff + 1)
  {
    (nowMs - savedMs) / 1000
  }

  /** `formatLastSaved`: "Never" without a save, "Just now" under a minute
      (a save stamped in the future included), whole minutes under an hour, and
      the locale's rendering of the save time otherwise; that rendering is a
      parameter. */
  function FormatLastSaved(savedMs: Option<int>, nowMs: int, localeTime: string): (r: string)
    ensures savedMs.None? ==> r == "Never"
    ensures savedMs.Some? && ElapsedSeconds(savedMs.value, nowMs) < 60 ==> r == "Just now"
    ensures savedMs.Some? && 3600 <= ElapsedSeconds(savedMs.value, nowMs) ==> r == localeTime
  {
    match savedMs
    case None => "Never"
    case Some(saved) =>
      var diff := ElapsedSeconds(saved, nowMs);
      if diff < 60 then "Just now"
      else if diff < 3600 then DecimalString(diff / 60) + "m ago"
      else localeTime
  }

  /** Between one minute and one hour the label is `"<m>m ago"` where `m`, between
      1 and 59, is the number of whole minutes that have passed. */
  lemma MinutesAgo(savedMs: int, nowMs: int, localeTime: string)
    requires 60 <= ElapsedSeconds(savedMs, nowMs) < 3600
    ensures var r := FormatLastSaved(Some(savedMs), nowMs, localeTime);
            && 6 <= |r| <= 7 && r[|r| - 5..] == "m ago"
            && AllDigits(r[..|r| - 5])
            && var m := DigitsValue(r[..|r| - 5]);
               1 <= m <= 59 && 60000 * m <= nowMs - savedMs < 60000 * (m + 1)
  {
    var m := ElapsedSeconds(savedMs, nowMs) / 60;
    var r := FormatLastSaved(Some(savedMs), nowMs, localeTime);
    assert r == DecimalString(m) + "m ago";
    assert r[..|r| - 5] == DecimalString(m);
    DecimalStringRoundTrip(m);
  }

  // ---------------------------------------------------------------- admin

  /** Admin rights come from the signed-in user's role metadata, when present. */
  predicate IsAdmin(role: Option<string>) {
    role == Some("admin")
  }

  /** The "Add Question" button needs both an admin and a handler to call. */
  predicate ShowsAddQuestion(role: Option<string>, hasHandler: bool) {
    IsAdmin(role) && hasHandler
  }

  /** The editor passes a handler exactly to admins, by the same role test, so
      the button shows exactly for the `admin` role; without a handler it never
      shows, whatever the role. */
  lemma AddQuestionOnlyForAdmins(role: Option<string>)
    ensures ShowsAddQuestion(role, IsAdmin(role)) <==> role == Some("admin")
    ensures !ShowsAddQuestion(role, false)
  {
  }
}

=== FILE: strings.dfy ===
/** The optional-value wrapper used wherever the source reads a field that may be
    `null`/`undefined`. */
module Optional {

  datatype Option<+T> = None | Some(value: T) {

    /** The carried value, or `default` when there is none (JavaScript's `x || d`
        for a value that cannot itself be falsy). */
    function GetOr(default: T): T {
      match this
      case Some(v) => v
      case None => default
    }
  }
}

/** String helpers with the semantics of the JavaScript built-ins the application
    calls: `String.prototype.trim`, `Number.prototype.toString` on whole numbers,
    `String.prototype.split` on a one-character separator and `padStart`. */
module Strings {

  /** ECMAScript WhiteSpace and LineTerminator code points: exactly the characters
      `trim` removes. */
  predicate IsWhiteSpace(c: char) {
    || c == ' ' || c == '\t' || c == '\n' || c == '\r'
    || c == '\U{000B}' || c == '\U{000C}' || c == '\U{00A0}' || c == '\U{FEFF}'
    || c == '\U{1680}' || ('\U{2000}' <= c <= '\U{200A}')
    || c == '\U{2028}' || c == '\U{2029}' || c == '\U{202F}' || c == '\U{205F}'
    || c == '\U{3000}'
  }

  predicate AllWhiteSpace(s: string) {
    forall i :: 0 <= i < |s| ==> IsWhiteSpace(s[i])
  }

  /** How many white-space characters `s` starts with. */
  function LeadingWhiteSpace(s: string): (k: nat)
    ensures k <= |s|
  {
    if |s| > 0 && IsWhiteSpace(s[0]) then 1 + LeadingWhiteSpace(s[1..]) else 0
  }

  /** How many white-space characters `s` ends with. */
  function TrailingWhiteSpace(s: string): (k: nat)
    ensures k <= |s|
  {
    if |s| > 0 && IsWhiteSpace(s[|s| - 1]) then 1 + TrailingWhiteSpace(s[..|s| - 1]) else 0
  }

  /** `trimStart`: `s` without its leading white space. */
  function TrimStart(s: string): string {
    s[LeadingWhiteSpace(s)..]
  }

  /** `trimEnd`: `s` without its trailing white space. */
  function TrimEnd(s: string): string {
    s[..|s| - TrailingWhiteSpace(s)]
  }

  /** `trim`: `s` with leading and trailing white space removed. */
  function Trim(s: string): string {
    TrimEnd(TrimStart(s))
  }

  lemma AllWhiteSpaceCons(c: char, t: string)
    requires IsWhiteSpace(c) && AllWhiteSpace(t)
    ensures AllWhiteSpace([c] + t) && AllWhiteSpace(t + [c])
  {
    forall i | 0 <= i < |t| + 1
      ensures IsWhiteSpace(([c] + t)[i]) && IsWhiteSpace((t + [c])[i])
    {
      if i > 0 { assert ([c] + t)[i] == t[i - 1]; }
      if i < |t| { assert (t + [c])[i] == t[i]; }
    }
  }

  /** The leading run is all white space, and it is maximal. */
  lemma {:induction false} LeadingWhiteSpaceSpec(s: string)
    ensures AllWhiteSpace(s[..LeadingWhiteSpace(s)])
    ensures LeadingWhiteSpace(s) == |s| || !IsWhiteSpace(s[LeadingWhiteSpace(s)])
  {
    if |s| > 0 && IsWhiteSpace(s[0]) {
      var t := s[1..];
      LeadingWhiteSpaceSpec(t);
      var k := LeadingWhiteSpace(t);
      assert LeadingWhiteSpace(s) == k + 1;
      assert s[..k + 1] == [s[0]] + t[..k];
      AllWhiteSpaceCons(s[0], t[..k]);
      assert k < |t| ==> s[k + 1] == t[k];
    }
  }

  /** The trailing run is all white space, and it is maximal. */
  lemma {:induction false} TrailingWhiteSpaceSpec(s: string)
    ensures AllWhiteSpace(s[|s| - TrailingWhiteSpace(s)..])
    ensures TrailingWhiteSpace(s) == |s| || !IsWhiteSpace(s[|s| - 1 - TrailingWhiteSpace(s)])
  {
    if |s| > 0 && IsWhiteSpace(s[|s| - 1]) {
      var t := s[..|s| - 1];
      TrailingWhiteSpaceSpec(t);
      var k := TrailingWhiteSpace(t);
      assert TrailingWhiteSpace(s) == k + 1;
      assert s[|s| - (k + 1)..] == t[|t| - k..] + [s[|s| - 1]];
      AllWhiteSpaceCons(s[|s| - 1], t[|t| - k..]);
      assert k < |t| ==> s[|t| - 1 - k] == t[|t| - 1 - k];
    }
  }

  /** What `trim` keeps is the slice `s[i..j]`: it has white space on both sides
      of it, and neither starts nor ends with white space itself. */
  lemma TrimSpec(s: string) returns (i: nat, j: nat)
    ensures i <= j <= |s| && Trim(s) == s[i..j]
    ensures AllWhiteSpace(s[..i]) && AllWhiteSpace(s[j..])
    ensures Trim(s) == [] || (!IsWhiteSpace(Trim(s)[0]) && !IsWhiteSpace(Trim(s)[|Trim(s)| - 1]))
  {
    i := LeadingWhiteSpace(s);
    var t := s[i..];
    var b := TrailingWhiteSpace(t);
    LeadingWhiteSpaceSpec(s);
    TrailingWhiteSpaceSpec(t);
    j := |s| - b;
    assert Trim(s) == t[..|t| - b] == s[i..j];
    assert s[j..] == t[|t| - b..];
    if i < j {
      assert Trim(s)[0] == s[i];
      assert Trim(s)[|Trim(s)| - 1] == t[|t| - 1 - b];
    }
  }

  lemma TrimIdempotent(s: string)
    ensures Trim(Trim(s)) == Trim(s)
  {
    var _, _ := TrimSpec(s);
    TrimFixesTrimmed(Trim(s));
  }

  /** A string that neither starts nor ends with white space is its own trim. */
  lemma TrimFixesTrimmed(r: string)
    requires r == [] || (!IsWhiteSpace(r[0]) && !IsWhiteSpace(r[|r| - 1]))
    ensures Trim(r) == r
  {
  }

  /** `!s.trim()` holds exactly when every character of `s` is white space. */
  lemma TrimEmptyIffBlank(s: string)
    ensures Trim(s) == [] <==> AllWhiteSpace(s)
  {
    var i, j := TrimSpec(s);
    if Trim(s) == [] {
      assert i == j;
      forall k | 0 <= k < |s| ensures IsWhiteSpace(s[k]) {
        if k < i { assert s[..i][k] == s[k]; } else { assert s[j..][k - j] == s[k]; }
      }
    } else {
      assert s[i] == Trim(s)[0];
    }
  }

  // ---------------------------------------------------------------- decimals

  predicate IsDigit(c: char) {
    '0' <= c <= '9'
  }

  predicate AllDigits(s: string) {
    forall i :: 0 <= i < |s| ==> IsDigit(s[i])
  }

  function DigitChar(d: nat): (c: char)
    requires d < 10
    ensures IsDigit(c)
  {
    ('0' as int + d) as char
  }

  function DigitValue(c: char): (d: nat)
    requires IsDigit(c)
    ensures d < 10 && DigitChar(d) == c
  {
    (c as int - '0' as int) as nat
  }

  /** The shortest decimal numeral of `n`, as `String(n)` prints a whole number:
      digits only, no leading zero unless the number is zero. */
  function DecimalString(n: nat): (r: string)
    ensures 1 <= |r| && AllDigits(r)
    ensures |r| > 1 ==> r[0] != '0'
    ensures n < 10 <==> |r| == 1
    ensures 10 <= n < 100 <==> |r| == 2
  {
    if n < 10 then [DigitChar(n)] else DecimalString(n / 10) + [DigitChar(n % 10)]
  }

  /** The value of a string of decimal digits; leading zeros are ignored and the
      empty string reads as zero. */
  function DigitsValue(s: string): nat
    requires AllDigits(s)
  {
    if s == [] then 0 else DigitsValue(s[..|s| - 1]) * 10 + DigitValue(s[|s| - 1])
  }

  lemma {:induction false} DecimalStringRoundTrip(n: nat)
    ensures DigitsValue(DecimalString(n)) == n
  {
    var r := DecimalString(n);
    if n >= 10 {
      assert r[..|r| - 1] == DecimalString(n / 10);
      DecimalStringRoundTrip(n / 10);
    }
  }

  /** The other direction: a digit string without a leading zero is the printed
      form of its own value, so decimal printing is a bijection onto such strings. */
  lemma {:induction false} DigitsValueRoundTrip(s: string)
    requires 1 <= |s| && AllDigits(s)
    requires |s| > 1 ==> s[0] != '0'
    ensures DecimalString(DigitsValue(s)) == s
  {
    if |s| > 1 {
      var p := s[..|s| - 1];
      var v, d := DigitsValue(p), DigitValue(s[|s| - 1]);
      DigitsValueRoundTrip(p);
      DigitsValuePositive(p);
      var n := v * 10 + d;
      assert n / 10 == v && n % 10 == d;
      assert DecimalString(n) == DecimalString(v) + [DigitChar(d)];
      assert s == p + [s[|s| - 1]];
    }
  }

  lemma {:induction false} DigitsValuePositive(s: string)
    requires 1 <= |s| && AllDigits(s) && s[0] != '0'
    ensures DigitsValue(s) > 0
  {
    if |s| > 1 {
      DigitsValuePositive(s[..|s| - 1]);
    }
  }

  /** Leading zeros do not change the value of a digit string. */
  lemma {:induction false} DigitsValueLeadingZero(s: string)
    requires AllDigits(s)
    ensures AllDigits(['0'] + s) && DigitsValue(['0'] + s) == DigitsValue(s)
  {
    if s != [] {
      assert (['0'] + s)[..|s|] == ['0'] + s[..|s| - 1];
      DigitsValueLeadingZero(s[..|s| - 1]);
    }
  }

  // ---------------------------------------------------------------- padding

  function Repeat(c: char, n: nat): (r: string)
    ensures |r| == n && forall i :: 0 <= i < n ==> r[i] == c
  {
    if n == 0 then [] else [c] + Repeat(c, n - 1)
  }

  /** `s.padStart(width, c)` for a one-character pad string: `s` itself when it is
      already `width` long, otherwise `s` behind enough copies of `c`. */
  function PadStart(s: string, width: nat, c: char): (r: string)
    ensures |r| == if |s| >= width then |s| else width
    ensures r[|r| - |s|..] == s
    ensures forall i :: 0 <= i < |r| - |s| ==> r[i] == c
  {
    if |s| >= width then s else Repeat(c, width - |s|) + s
  }

  lemma {:induction false} ZeroPaddedValue(s: string, width: nat)
    requires AllDigits(s)
    ensures AllDigits(PadStart(s, width, '0'))
    ensures DigitsValue(PadStart(s, width, '0')) == DigitsValue(s)
  {
    if |s| < width {
      var r := PadStart(s, width, '0');
      assert r == ['0'] + PadStart(s, width - 1, '0');
      ZeroPaddedValue(s, width - 1);
      DigitsValueLeadingZero(PadStart(s, width - 1, '0'));
    }
  }

  // ---------------------------------------------------------------- split

  /** `s.split(sep)` for a one-character separator: the pieces between the
      separators, in order; always at least one piece. */
  function Split(s: string, sep: char): (r: seq<string>)
    ensures |r| >= 1
  {
    if sep !in s then [s]
    else
      var k := FirstIndex(s, sep);
      [s[..k]] + Split(s[k + 1..], sep)
  }

  function FirstIndex(s: string, c: char): (k: nat)
    requires c in s
    ensures k < |s| && s[k] == c && c !in s[..k]
  {
    if s[0] == c then 0
    else
      assert c in s[1..];
      var k := FirstIndex(s[1..], c);
      assert s[..k + 1] == [s[0]] + s[1..][..k];
      k + 1
  }

  /** Splitting text that starts with a separator-free piece peels that piece off. */
  lemma SplitPrefix(a: string, sep: char, b: string)
    requires sep !in a
    ensures Split(a + [sep] + b, sep) == [a] + Split(b, sep)
  {
    var s := a + [sep] + b;
    assert s[|a|] == sep;
    var k := FirstIndex(s, sep);
    assert s[..k] == a;
    assert s[k + 1..] == b;
  }

  lemma DigitsHaveNoSeparator(s: string, sep: char)
    requires AllDigits(s) && !IsDigit(sep)
    ensures sep !in s
  {
  }
}

=== FILE: test_results.dfy ===
/** The results panel (`src/components/TestResults.tsx`): it reads back the
    `"passed/total"` string, computes the width of the progress bar, and decides
    which badge and which blocks are shown. */
module TestResults {
  import opened Strings
  import opened CodeExecution

  /** The value `Number(piece)` yields, and `undefined` for a missing piece. */
  datatype NumberValue = Num(value: nat) | NotANumber | Undefined

  /** `Number(s)` on a string: surrounding white space is ignored, the empty
      string is 0, a plain decimal numeral is its value. */
  function ToNumber(s: string): (v: NumberValue)
    ensures v != Undefined
  {
    var t := Trim(s);
    if AllDigits(t) then Num(DigitsValue(t)) else NotANumber
  }

  /** `const [passed, total] = testCasesPassed.split('/').map(Number)`. */
  function ParsePassed(testCasesPassed: string): (pt: (NumberValue, NumberValue))
    ensures pt.0 != Undefined
    ensures '/' !in testCasesPassed ==> pt.1 == Undefined
  {
    var pieces := Split(testCasesPassed, '/');
    (ToNumber(pieces[0]), if |pieces| > 1 then ToNumber(pieces[1]) else Undefined)
  }

  lemma DecimalStringIsNumber(n: nat)
    ensures ToNumber(DecimalString(n)) == Num(n)
  {
    var s := DecimalString(n);
    TrimFixesTrimmed(s);
    DecimalStringRoundTrip(n);
  }

  /** Reading back the string `executeCode` writes recovers both counts. */
  lemma ParsePassedRoundTrip(passed: nat, total: nat)
    ensures ParsePassed(DecimalString(passed) + "/" + DecimalString(total)) == (Num(passed), Num(total))
  {
    var a, b := DecimalString(passed), DecimalString(total);
    DigitsHaveNoSeparator(a, '/');
    DigitsHaveNoSeparator(b, '/');
    SplitPrefix(a, '/', b);
    assert a + "/" + b == a + ['/'] + b;
    DecimalStringIsNumber(passed);
    DecimalStringIsNumber(total);
  }

  /** The progress bar's width in percent, or `NaN` when the division has no
      numeric result. */
  datatype Rate = Percent(value: real) | NaN

  /** `total > 0 ? (passed / total) * 100 : 0`, in exact arithmetic: with no
      positive total (zero, `NaN` or missing) the width is 0. */
  function PassRate(passed: NumberValue, total: NumberValue): (r: Rate)
    ensures !(total.Num? && total.value > 0) ==> r == Percent(0.0)
    ensures total.Num? && total.value > 0 && passed.Num? && passed.value <= total.value ==>
              r.Percent? && 0.0 <= r.value <= 100.0
    ensures total.Num? && total.value > 0 && passed.Num? ==>
              r.Percent? && r.value * total.value as real == 100.0 * passed.value as real
    ensures total.Num? && total.value > 0 && !passed.Num? ==> r == NaN
  {
    if total.Num? && total.value > 0 then
      if passed.Num? then Percent((passed.value as real / total.value as real) * 100.0) else NaN
    else Percent(0.0)
  }

  /** With a positive total, the bar is full exactly when every case passed. */
  lemma PassRateFull(passed: nat, total: nat)
    requires passed <= total && 0 < total
    ensures PassRate(Num(passed), Num(total)) == Percent(100.0) <==> passed == total
  {
    var r := PassRate(Num(passed), Num(total));
    assert r.value * total as real == 100.0 * passed as real;
  }

  // ---------------------------------------------------------------- display

  /** The badge text. */
  function Badge(result: ExecutionResult): string {
    if result.status == Success then "Accepted" else "Failed"
  }

  /** The "Error" block: an `error` status with a non-empty message. */
  predicate ShowsErrorBlock(result: ExecutionResult) {
    result.status == Error && result.errorMessage != ""
  }

  /** The "How to Fix" block: an `error` status with non-empty suggestions. */
  predicate ShowsSuggestions(result: ExecutionResult) {
    result.status == Error && result.suggestions != ""
  }

  /** The "Failed Test Cases" section is rendered only for a non-empty list. */
  predicate ShowsFailedSection(result: ExecutionResult) {
    |result.failedTestCases| > 0
  }

  /** One rendered row of the failed list. */
  datatype Row = Row(input: string, expected: string, actual: string)

  /** How the "Expected" cell renders a field: a string as it is, `null` (an
      object to `typeof`) through `JSON.stringify` as the text `null`, and a
      missing field as nothing. */
  function Shown(field: JsonText): (r: string)
    ensures field.Text? ==> r == field.value
    ensures field.Null? ==> r == "null"
    ensures field.Absent? ==> r == ""
  {
    match field
    case Text(v) => v
    case Null => "null"
    case Absent => ""
  }

  /** A `null` and a missing expected output are judged alike, both comparing as
      the empty string, yet the failed list tells them apart. */
  lemma NullAndAbsentDiffer(input: string, r: Response)
    ensures Passes(TestCase(input, Null), r) <==> Passes(TestCase(input, Absent), r)
    ensures FailureOf(TestCase(input, Null), r).expected != FailureOf(TestCase(input, Absent), r).expected
    ensures Shown(Null) == "null" && Shown(Absent) == ""
  {
  }

  /** The rows of the failed list, one per failed case, in list order. */
  function FailedRows(result: ExecutionResult): (rows: seq<Row>)
    ensures |rows| == |result.failedTestCases|
    ensures forall k :: 0 <= k < |rows| ==>
              rows[k] == Row(result.failedTestCases[k].input,
                             Shown(result.failedTestCases[k].expected),
                             result.failedTestCases[k].actual)
  {
    var failed := result.failedTestCases;
    seq(|failed|, k requires 0 <= k < |failed| =>
      Row(failed[k].input, Shown(failed[k].expected), failed[k].actual))
  }

  /** Badge and blocks for the result of a run: "Accepted" exactly when every
      case passed; the error block, the suggestions and the failed list exactly
      when some case failed. */
  lemma PanelForVerdict(cases: seq<TestCase>, resps: seq<Response>)
    requires |cases| == |resps|
    ensures var v := Verdict(cases, resps);
            var all := forall i :: 0 <= i < |cases| ==> Passes(cases[i], resps[i]);
            && (Badge(v) == "Accepted" <==> all)
            && (ShowsErrorBlock(v) <==> !all)
            && (ShowsSuggestions(v) <==> !all)
            && (ShowsFailedSection(v) <==> !all)
  {
    VerdictStatus(cases, resps);
    VerdictCounts(cases, resps);
    AllPassIff(cases, resps);
  }

  /** The failed list of a run shows one row per failing case, in input order,
      with the case's own input and expected output and the classified output. */
  lemma RowsForVerdict(cases: seq<TestCase>, resps: seq<Response>)
    requires |cases| == |resps|
    ensures var rows := FailedRows(Verdict(cases, resps));
            var idx := FailingIndices(Checks(cases, resps));
            && |rows| == |idx|
            && forall k :: 0 <= k < |idx| ==>
                 rows[k] == Row(cases[idx[k]].input, Shown(cases[idx[k]].expectedOutput),
                                ActualOutput(resps[idx[k]]))
  {
    VerdictCounts(cases, resps);
    FailedInInputOrder(cases, resps);
  }

  /** The pass string of a run reads back as the pass count over the number of
      cases. */
  lemma CountsForVerdict(cases: seq<TestCase>, resps: seq<Response>)
    requires |cases| == |resps|
    ensures ParsePassed(Verdict(cases, resps).testCasesPassed)
            == (Num(TallyOf(Checks(cases, resps)).passed), Num(|cases|))
  {
    VerdictCounts(cases, resps);
    ParsePassedRoundTrip(TallyOf(Checks(cases, resps)).passed, |cases|);
  }

  /** The progress bar of a run is full exactly when the run is accepted, except
      that an empty test list is accepted with an empty bar. */
  lemma BarForVerdict(cases: seq<TestCase>, resps: seq<Response>)
    requires |cases| == |resps|
    ensures var v := Verdict(cases, resps);
            var pt := ParsePassed(v.testCasesPassed);
            var r := PassRate(pt.0, pt.1);
            && r.Percent?
            && (|cases| > 0 ==> (r.value == 100.0 <==> v.status == Success))
            && (|cases| == 0 ==> r.value == 0.0 && v.status == Success)
  {
    var p, n := TallyOf(Checks(cases, resps)).passed, |cases|;
    CountsForVerdict(cases, resps);
    VerdictStatus(cases, resps);
    AllPassIff(cases, resps);
    if n > 0 {
      PassRateFull(p, n);
    }
  }
}
